=== FILE: README.md ===
# Minute-bar ingestion and daily snapshot compilation, in Dafny

This project models the two pure cores of a market-data pipeline and proves
properties of them.

**Ingestion** (`main.py`):
- Symbol discovery keeps the plain upper-case tickers listed in the daily
  grouped snapshots.
- The paginated download loop keeps two pieces of state: the set of symbols
  still being fetched, and one cursor URL per symbol. It drives them from the
  pages the server returns.
- Each page is cut into chunks of 25 000 rows and written to the symbol's
  directory.
- A request that fails is retried with a quadratic back-off. Once the retry
  budget is exhausted, the whole run stops.

**Snapshot compilation** (`market_snapshot_maker.py`):
- A one-pass state machine reduces each stored partition of minute bars to
  validated OHLCV rows. A chronological partition yields at most one row per
  calendar day. The machine compares each bar's day only with the previous
  bar's, so a partition whose days are out of order can yield two rows for
  one day.
- Partitions are pruned by year.
- The symbol universe is split into six shards.
- Each shard's per-day tables are merged into one table per day. As written,
  the driver's pool call leaves out the worker's data-directory argument, so
  every run raises before any table is merged (see Findings).

Modules:
- `Common`: options, results, map lookups, dates, digit strings, `Flatten`.
- `DayAggregation`: the per-partition reduction as written.
- `DayAggregationSpec`: reference definitions of each day's summary, and the
  proof that the reduction computes them.
- `EvenSplit`: `evenly_split_list`.
- `Snapshots`: year pruning, per-symbol and per-shard reduction, per-day
  tables and their merge.
- `SymbolUniverse`: the ticker filter.
- `Retry`: the retry schedule.
- `PageStore`: chunking and page writes.
- `Pagination`: URL rewriting, per-page transitions, rounds, and the
  independence of a round's result from page-completion order.
- `Ingestion`: the round and download loops.

Modelling choices:
- Bars carry a precomputed exchange-local `Date` and minute of the day. The
  trading window is minutes `[570, 947)`, that is 09:30 to 15:47.
- Prices and volumes are integers. An absent `open` or `close` is `None`, and
  Python truthiness of these is `Truthy`.
- These exceptions become `Err` values:
  - a missing symbol directory;
  - a non-numeric partition name;
  - an empty partition;
  - `list.remove` of a symbol that is no longer live;
  - a non-zero result count with no rows.
- `sleep` becomes the returned sequence of delays, and `exit()` becomes the
  outcome `Fatal`/`Stopped`.
- The server is a function from a request URL and an attempt index to an
  optional page.
- The order in which pages complete (`asyncio.as_completed`) is left open:
  `RunRound` picks the next pending symbol with `:|`. `RunRound` reports, for
  each page handled, the live symbol and the first attempt that succeeded
  for it, and no
  symbol is requested twice. When each page carries the ticker it was
  requested for, the round's pages are therefore of different symbols
  (`Ingestion.ServedDistinct`). For such pages,
  `Pagination.RoundOrderIrrelevant` shows that the completion order does not
  change the result.

### Behaviour kept as written

- **Retries.** The message at `main.py:100` speaks of failing "10 times". The
  code retries after failures at attempts 0 to 9 and stops after a failure at
  attempt 10, so it makes up to 11 attempts, with sleeps 0, 1, 4, …, 81
  (`Retry.FetchWithRetry`, `Retry.AllFailSchedule`).
- **Chunk keys.** Every chunk of a page is written under the page's first time
  stamp (`main.py:84`), so each chunk overwrites the previous one and only the
  last chunk of a page survives (`PageStore.WritePageKeepsLastChunk`,
  `PageStore.LargePageLosesRows`).
- **First-day range test.** A partition's first day is compared strictly
  (`start < day < end`); every later day is compared inclusively.
- **Final bar.** The final bar of a partition triggers a close-out before it
  is accumulated, so it never counts towards any row
  (`DayAggregationSpec.LastBarNeverCounted`).

## Model

| member | source | states |
|---|---|---|
| DayAggregation.Accumulate | market_snapshot_maker.py:70-82 | a bar leaves an out-of-range day untouched; on an in-range day it always adds its volume, and a bar outside the trading window changes nothing but the volume |
| DayAggregation.CloseOut | market_snapshot_maker.py:47-55 | a close-out emits at most one row, and emits one exactly when close is set and non-zero and none of open, high, low, volume is zero or absent; the row is valid and carries the day and symbol |
| DayAggregation.Scan | market_snapshot_maker.py:40-82 | every row the loop emits is valid, carries the symbol, and lies within the requested range |
| DayAggregation.ReducePartition | market_snapshot_maker.py:32-82 | every row a partition contributes is valid, carries the symbol and lies within the range |
| DayAggregationSpec.FirstOpenIsFirstNonZero | market_snapshot_maker.py:75-77 | the day's open is the open of the earliest window bar whose open is non-zero, and it is absent exactly when every window bar opens at zero |
| DayAggregationSpec.LastCloseIsLastWindowClose | market_snapshot_maker.py:75-82 | the day's close is present exactly when some bar lies in the window, and is then the latest window bar's close |
| DayAggregationSpec.HighIsWindowMax | market_snapshot_maker.py:78-79 | the day's high is at least every window bar's high, and is either the initial 0 or the high of some window bar |
| DayAggregationSpec.LowIsWindowMin | market_snapshot_maker.py:80-81 | the day's low is at most every window bar's low, and is either the initial `maxsize` or the low of some window bar |
| DayAggregationSpec.FoldOutOfRange | market_snapshot_maker.py:70-72 | bars on a day whose in-range flag is false contribute nothing to the accumulator |
| DayAggregationSpec.FoldSummary | market_snapshot_maker.py:74-82 | folding in-range bars adds their whole volume whatever their time, and sets high, low, close and open to the window max, min, last close and first non-zero open |
| DayAggregationSpec.FreshRun | market_snapshot_maker.py:57-62 | one day's run folded from the reset sentinels and closed out gives exactly that day's summary row, or none when the day is out of range or invalid |
| DayAggregationSpec.DayFoldsAreDayRows | market_snapshot_maker.py:40-82 | folding each day's run separately gives the reference day-by-day rows |
| DayAggregationSpec.ScanBody | market_snapshot_maker.py:43-68 | the loop first finishes the current day's run of bars and then proceeds day by day, with close-out happening exactly on a day change |
| DayAggregationSpec.ReduceIsDayRows | market_snapshot_maker.py:32-82 | a partition's rows are the day-by-day summaries of all its bars except the last: the first day is compared strictly, later days inclusively |
| DayAggregationSpec.LastBarNeverCounted | market_snapshot_maker.py:44-45 | replacing a partition's final bar by any other bar leaves its rows unchanged |
| DayAggregationSpec.DayRowsDays | market_snapshot_maker.py:53-55 | every row is for a day on which some bar of the partition falls |
| DayAggregationSpec.DayRowsIncreasing | market_snapshot_maker.py:43-55 | in a chronological sequence of bars, the day-by-day rows are for strictly increasing days, none before the first bar's day |
| DayAggregationSpec.OneRowPerDay | market_snapshot_maker.py:43-55 | a chronological partition yields rows for strictly increasing days, so at most one row per calendar day |
| DayAggregationSpec.FirstDayAtRangeEdgeDropped | market_snapshot_maker.py:33 | a chronological partition whose first day equals the range's start or end yields no row for that day |
| EvenSplit.EvenlySplit | market_snapshot_maker.py:87-98 | a positive count gives exactly that many pieces whose concatenation in order is the list; the first `len % x` pieces have `len // x + 1` elements and the rest `len // x`, so sizes differ by at most one; a negative count gives no pieces |
| EvenSplit.SplitDone | market_snapshot_maker.py:88-94 | once all pieces are cut they cover the list exactly and have the promised sizes |
| EvenSplit.StartWithin | market_snapshot_maker.py:92-96 | every piece starts within the list and the last piece ends exactly at its end |
| EvenSplit.StartClosed | market_snapshot_maker.py:94-96 | the start of piece `i` is `i * avg + min(i, remainder)` |
| Snapshots.PartitionYear | market_snapshot_maker.py:25 | a file name stands for a year exactly when its text before the first `.` is a non-empty run of digits |
| Snapshots.PartitionYearOfYearFile | market_snapshot_maker.py:25 | a file named after a year and an extension is read as that year |
| Snapshots.PartitionRows | market_snapshot_maker.py:24-33 | a file raises exactly when its name is not a number or it is an empty partition of a selected year; it contributes rows only when its year lies between the range's years; the rows are valid, in range and of its symbol |
| Snapshots.SymbolRows | market_snapshot_maker.py:24-82 | a symbol's rows are valid, in range and carry the symbol |
| Snapshots.ShardRows | market_snapshot_maker.py:23-82 | a shard's rows are valid, in range and carry one of the shard's symbols |
| Snapshots.ShardRowsAppend | market_snapshot_maker.py:23 | reducing two symbol lists one after the other is reducing their concatenation, with the first failure winning |
| Snapshots.RowsOnContents | market_snapshot_maker.py:53-55 | a day has rows exactly when some emitted row falls on it, and each of its rows comes from a row for that day |
| Snapshots.Collect | market_snapshot_maker.py:53-55 | the per-day tables hold, for each day, the rows for that day in emission order, and a day has a table exactly when it has rows |
| Snapshots.CollectTablesOk | market_snapshot_maker.py:47-55 | every table is for a day in range, is non-empty, and holds only valid rows of the reduced symbols |
| Snapshots.MakeSnapshots | market_snapshot_maker.py:12-84 | the per-day tables exist exactly when no file raised, and every table is non-empty, in range and holds valid rows of the listed symbols |
| Snapshots.MergeInto | market_snapshot_maker.py:116-118 | merging keeps every day of either side; each day's table is as long as both sides' tables together, starts with the earlier rows and ends with the shard's rows |
| Snapshots.MergeCollect | market_snapshot_maker.py:116-118 | merging two shards' tables gives, for every day, the first shard's rows followed by the second's; a day is present iff either shard had rows on it; the merge equals the tables of the concatenated rows |
| Snapshots.ShardSplit | market_snapshot_maker.py:109-118 | reducing the shards in order, one by one, is reducing the whole symbol list |
| Snapshots.Worker | market_snapshot_maker.py:113 | a worker call without the data directory always raises; with it, the call succeeds exactly when no file of the shard raises, and every table it returns is non-empty, in range and holds valid rows of the shard's symbols |
| Snapshots.MergeResults | market_snapshot_maker.py:115-118 | reading the results in order succeeds exactly when every worker succeeded; otherwise it raises the first failing worker's error, every earlier one having succeeded |
| Snapshots.CompileSnapshotsAsWritten | market_snapshot_maker.py:109-115 | the driver as written raises the missing-argument error for every range, symbol list and store, since each of the six worker calls lacks the data directory and the first result read re-raises |
| Snapshots.CompileSnapshots | market_snapshot_maker.py:109-118 | the driver as intended, each worker given the data directory: sharding six ways and merging shard results in order gives the same tables (or the same error) as reducing the whole symbol list at once |
| SymbolUniverse.IsTicker | main.py:33 | a ticker is accepted exactly when it satisfies independent definitions of `isalpha()` and `isupper()` on ASCII text: non-empty and all letters, with at least one cased letter and every cased letter upper-case |
| SymbolUniverse.CollectSymbols | main.py:29-34 | the universe is exactly the set of tickers listed on some date that are non-empty and wholly upper-case letters; no other ticker is added |
| SymbolUniverse.UniverseOrderIrrelevant | main.py:29 | the universe does not depend on the order in which the daily snapshots complete |
| Retry.Retry | main.py:93-103 | from attempt `t` on, the request fails fatally exactly when every attempt from `t` up to the limit fails; otherwise it returns the first successful attempt, and failure `k` sleeps `k * k` before retrying |
| Retry.FetchWithRetry | main.py:93-103 | attempts are numbered from 0; the run stops exactly when attempts 0 to 10 all fail; otherwise the first success is returned after at most 10 sleeps of `0, 1, 4, …` |
| Retry.AllFailSchedule | main.py:99-102 | when every attempt fails, the run stops after the sleeps 0, 1, 4, 9, 16, 25, 36, 49, 64, 81 |
| Retry.SuccessAfterFailures | main.py:94-103 | a request whose first success is attempt `k` returns that attempt's value after `k` sleeps |
| PageStore.Chunks | main.py:81-82 | a page of `n` rows is cut into `ceil(n / 25000)` non-empty chunks of at most 25000 rows, all but the last full, covering the rows in order |
| PageStore.WriteChunks | main.py:81-84 | writing chunks under one key leaves only the last chunk under it and changes nothing else |
| PageStore.LastChunkIsTail | main.py:81-82 | the last chunk is the tail of the page from the last multiple of 25000 below its length |
| PageStore.WritePage | main.py:81-84 | a page write leaves an empty page's directory unchanged; otherwise it adds or replaces only the file named after the page's first time stamp, which holds the page's last chunk |
| PageStore.WritePageKeepsLastChunk | main.py:84 | after a page write, every other file is unchanged and the page's file holds only the page's last chunk |
| PageStore.SmallPageStoredWhole | main.py:81-84 | a page of at most 25000 rows is stored whole |
| PageStore.LargePageLosesRows | main.py:84 | a page of more than 25000 rows loses at least its first 25000 rows |
| Pagination.Rewrite | main.py:88 | a stored cursor keeps the text of the server's URL before its first `?`, and its query is exactly the fixed parameters |
| Pagination.RewriteIdempotent | main.py:88 | rewriting an already rewritten cursor gives the same URL |
| Pagination.InitialUrl | main.py:48-58 | the first request of a symbol carries exactly the fixed parameters as its query, and for a symbol without `?` its text before the first `?` is the symbol's range path |
| Pagination.RequestUrl | main.py:57-58 | a symbol without `?` is requested with a URL in stored form whenever its stored cursor, if any, is in stored form |
| Pagination.InitialUrlIsRewritten | main.py:48-58 | the first request of a symbol without a `?` is already in stored form: rewriting it changes nothing |
| Pagination.RequestsRewritten | main.py:57-59 | when no symbol contains a `?`, the URL each live symbol of a well-formed state is requested with (its stored cursor or the initial range URL) carries exactly the fixed parameters |
| Pagination.HandlePage | main.py:63-90 | a zero count drops the ticker and changes neither cursors nor files; a page with a next URL stores the rewritten cursor and keeps the ticker live; a page without one drops it; pages with rows write them to the ticker's directory; it raises exactly for a count with no rows or for dropping a ticker that is not live |
| Pagination.HandlePageWf | main.py:67-90 | handling a page keeps every live symbol within the universe and every stored cursor in stored form, and never adds a symbol back |
| Pagination.Round | main.py:61-90 | a round never adds a symbol back |
| Pagination.RoundDropsOnlyFinished | main.py:67-69 | a symbol stops being fetched only because one of its pages had no results or no next URL |
| Pagination.RoundWf | main.py:61-90 | a round keeps the download loop's invariant |
| Pagination.HandlePageFrame | main.py:63-90 | a page changes nothing recorded about any other symbol |
| Pagination.HandlePageLocal | main.py:63-90 | what a page does depends only on what is recorded about its own symbol |
| Pagination.RoundPerSymbol | main.py:61-90 | a round over pages of different symbols succeeds exactly when each page succeeds on its own, and then each symbol ends as its own page alone would leave it |
| Pagination.RoundOrderIrrelevant | main.py:61 | any two completion orders of the same pages both succeed or both raise, and reach the same state when they succeed |
| Ingestion.FetchUrl | main.py:93-103 | a request stops the run exactly when all of attempts 0 to 10 against its URL fail; otherwise it returns the answer of the first successful attempt, which is at most attempt 10 |
| Ingestion.FirstAnswerIsFetched | main.py:93-103 | a page that some attempt of at most 10 returned, every earlier attempt having failed, is exactly the page and attempt the retry policy returns |
| Ingestion.FetchAndHandle | main.py:61-90 | a request halts the run exactly when all its attempts fail; otherwise the handled (or raising) page is what the server returned for that URL at its first successful attempt, which is at most attempt 10 |
| Ingestion.ServedSnoc | main.py:56-61 | answering one more live symbol that has not been requested yet keeps a round's record of requests sound |
| Ingestion.ServedDistinct | main.py:61-64 | when each page carries the ticker it was requested for, a round's pages are of pairwise different symbols, which is what `Pagination.RoundOrderIrrelevant` needs |
| Ingestion.RunRound | main.py:56-90 | each handled page is the server's answer, at the first successful attempt, to the request for a different live symbol, sent with that symbol's cursor or initial URL; the pages handled form a successful `Round` from the round's start; a finished round has requested every live symbol; a stop names a live symbol not yet answered whose request failed on every attempt; a raise names the live symbol, and the first successful attempt, whose page raised |
| Ingestion.RunsSnoc | main.py:50-90 | appending a whole round to a run of whole rounds gives a run that ends where the new round ends |
| Ingestion.Download | main.py:50-90 | the final state is reached from the initial one by the logged whole rounds (each started while some symbol was live, requesting every live symbol once and handling the answer of each request's first successful attempt) followed by one partial round; the loop keeps only universe symbols live and every cursor in stored form; it completes only with no symbol left, runs out of rounds only after `maxRounds` rounds with some left, stops only on a live symbol's request that failed on every attempt, and raises only on the page the first successful attempt returned for a live symbol |

## Left out

- EvenSplit.EvenlySplit: requires a non-zero count; Python raises `ZeroDivisionError` for 0, and the only caller (`market_snapshot_maker.py:109`) passes 6.
- Pagination.HandlePage: a page is a well-formed record, so the `KeyError` of a response without `ticker`, `resultsCount` or `results` (`main.py:64-65`, `main.py:72-73`) and the `AttributeError` of a null `next_url` (`main.py:88`) are not modelled.
- Ingestion.Download: bounded by a `maxRounds` parameter, since the code's loop runs until the server stops returning next URLs, which may never happen; exhausting the bound is the outcome `OutOfRounds`.
- SymbolUniverse.IsTicker: its reference definitions of `isalpha()` and `isupper()` cover ASCII letters only; Python's also cover non-ASCII letters and cased characters.
- SymbolUniverse.CollectSymbols: classifies ASCII text only; Python's `isalpha() and isupper()` also accepts non-ASCII upper-case letters.
- Snapshots.PartitionRows: reads the partition year as a plain digit string; Python's `int()` also accepts a sign, surrounding whitespace and digit underscores.
- Pagination.HandlePage: the list of live symbols is a set, which matches the caller's list built from a set of distinct symbols.
- Pagination.HandlePage: in the code, a page that raises after writing its rows leaves those files behind; the model returns only the error, because the raise ends the run.
- HTTP and JSON, which become abstract page values: the `aiohttp` sessions, the grouped-daily discovery requests (`main.py:25-44`) and their lack of retry.
- The NYSE trading calendar (`get_market_dates`), an external library call.
- The `Throttler(15)` admission control and the parallelism of the `multiprocessing.Pool`, which are concurrency only. The pool's call at `market_snapshot_maker.py:113` omits the worker's `res_dir` argument, so every worker raises (see Findings). `Snapshots.CompileSnapshots` models the intended call and merges results in the order `imap` yields them, which is shard order.
- Timezone conversion from UTC milliseconds to US/Eastern: bars carry their local day and minute instead.
- Floating-point prices and the NaN semantics of `isin`: prices are integers, and absent open/close values are `None`.
- File I/O:
  - CSV and feather formats;
  - `listdir`, `mkdir`, `rmtree`;
  - the `symbol_` directory suffix;
  - writing the per-day snapshot files and the final `astype(int)`.
- The link between the two stages' storage: `main.py` writes CSV files named after a page's first time stamp, while `market_snapshot_maker.py` reads one partition file per year. Neither script converts one into the other, so the two stores are modelled separately.
- Blocking `time.sleep` and `exit()`, which become returned delays and a terminal outcome.
- Command-line parsing, progress bars and display options.

## Findings

| source | as written | input that shows it | evidently intended | confidence | as-written member | corrected member |
|---|---|---|---|---|---|---|
| market_snapshot_maker.py:113 | `pool.imap(make_market_snapshots, [(start_date, end_date, symbols_) ...])` calls the two-parameter worker `make_market_snapshots(args, res_dir)` (line 12) with the tuple alone, so every call raises `TypeError` for the missing `res_dir`, re-raised when the loop at line 115 reads the first result | any input, for example an empty symbol directory: `evenly_split_list` still yields six (empty) shards, the first worker raises, and no snapshot is written, where the reduction of no symbols succeeds with no tables | each worker called with the data directory too, e.g. through `functools.partial(make_market_snapshots, res_dir=res_dir)`, and its tables merged in shard order | not executed | Snapshots.CompileSnapshotsAsWritten | Snapshots.CompileSnapshots |

=== FILE: common.dfy ===
/** Shared vocabulary: optional values, results, calendar dates, and the few
    string and sequence operations both pipeline stages rely on. */
module Common {

  /** A value that may be absent (Python's `None`). */
  datatype Option<T> = None | Some(value: T)

  /** The outcome of an operation that may raise instead of returning. */
  datatype Result<T, E> = Ok(value: T) | Err(error: E)

  /** The value stored under `k`, if any. */
  function Lookup<K, V>(m: map<K, V>, k: K): Option<V>
  {
    if k in m then Some(m[k]) else None
  }

  /** The value stored under `k`, or `otherwise` when there is none
      (Python's `dict.get(k, otherwise)`). */
  function GetOr<K, V>(m: map<K, V>, k: K, otherwise: V): V
  {
    if k in m then m[k] else otherwise
  }

  /** A calendar date in exchange-local time. */
  datatype Date = Date(year: nat, month: nat, day: nat)

  /** Chronological order of dates: lexicographic on (year, month, day). */
  predicate DateLe(a: Date, b: Date)
  {
    || a.year < b.year
    || (a.year == b.year && (a.month < b.month || (a.month == b.month && a.day <= b.day)))
  }

  predicate DateLt(a: Date, b: Date)
  {
    DateLe(a, b) && a != b
  }

  /** A requested closed range of dates [start, end]. */
  datatype DateRange = DateRange(start: Date, end: Date)

  /** The inclusive range test, `start <= day <= end`. */
  predicate Within(r: DateRange, d: Date)
  {
    DateLe(r.start, d) && DateLe(d, r.end)
  }

  /** The strict range test, `start < day < end`. */
  predicate StrictlyWithin(r: DateRange, d: Date)
  {
    DateLt(r.start, d) && DateLt(d, r.end)
  }

  /** The text of `s` before the first occurrence of `c`, or all of `s` when
      `c` does not occur (Python's `s.split(c)[0]`). */
  function PrefixBefore(s: string, c: char): (p: string)
    ensures |p| <= |s| && p == s[..|p|]
    ensures c !in p
    ensures |p| < |s| ==> s[|p|] == c
  {
    if s == [] || s[0] == c then [] else [s[0]] + PrefixBefore(s[1..], c)
  }

  /** Splitting `a + [c] + b` at the first `c` gives back `a` when `c` does not occur in `a`. */
  lemma PrefixBeforeSeparator(a: string, c: char, b: string)
    requires c !in a
    ensures PrefixBefore(a + [c] + b, c) == a
  {
    var s := a + [c] + b;
    var p := PrefixBefore(s, c);
    assert s[|a|] == c;
    assert forall i :: 0 <= i < |a| ==> s[i] == a[i];
    assert |p| <= |a| by {
      assert c !in s[..|p|];
    }
    assert s[..|p|] == p;
  }

  predicate IsDigit(ch: char)
  {
    '0' <= ch <= '9'
  }

  predicate AllDigits(s: string)
  {
    forall i :: 0 <= i < |s| ==> IsDigit(s[i])
  }

  function DigitChar(d: nat): (ch: char)
    requires d < 10
    ensures IsDigit(ch) && ch as int - '0' as int == d
  {
    (d + '0' as int) as char
  }

  /** The numeric value of a string of decimal digits, most significant first. */
  function DigitsValue(s: string): nat
    requires AllDigits(s)
  {
    if |s| == 0 then 0 else DigitsValue(s[..|s| - 1]) * 10 + (s[|s| - 1] as int - '0' as int)
  }

  /** The shortest decimal rendering of `n`. */
  function Decimal(n: nat): (s: string)
    ensures |s| > 0 && AllDigits(s)
  {
    if n < 10 then [DigitChar(n)] else Decimal(n / 10) + [DigitChar(n % 10)]
  }

  /** Python's `int(s)` on a plain digit string; `None` where Python raises. */
  function ParseNat(s: string): (r: Option<nat>)
    ensures r.Some? <==> |s| > 0 && AllDigits(s)
  {
    if |s| > 0 && AllDigits(s) then Some(DigitsValue(s)) else None
  }

  lemma {:induction false} DecimalValue(n: nat)
    ensures DigitsValue(Decimal(n)) == n
  {
    if n >= 10 {
      var s := Decimal(n);
      assert s[..|s| - 1] == Decimal(n / 10);
      DecimalValue(n / 10);
    }
  }

  /** Parsing a decimal rendering gives the number back. */
  lemma ParseDecimal(n: nat)
    ensures ParseNat(Decimal(n)) == Some(n)
  {
    DecimalValue(n);
  }

  function Zeros(k: nat): (z: string)
    ensures |z| == k && AllDigits(z)
  {
    if k == 0 then [] else Zeros(k - 1) + ['0']
  }

  lemma DigitsAppend(a: string, b: string)
    requires AllDigits(a) && AllDigits(b)
    ensures AllDigits(a + b)
  {
    forall i | 0 <= i < |a + b| ensures IsDigit((a + b)[i]) {
      if i < |a| { assert (a + b)[i] == a[i]; } else { assert (a + b)[i] == b[i - |a|]; }
    }
  }

  /** `n` in decimal, left-padded with zeros to at least `width` characters
      (Python's `%0<width>d`): digits only, and never shorter than `width`. */
  function ZeroPad(n: nat, width: nat): (s: string)
    ensures AllDigits(s) && |s| >= width
  {
    var digits := Decimal(n);
    var pad := if |digits| < width then width - |digits| else 0;
    DigitsAppend(Zeros(pad), digits);
    Zeros(pad) + digits
  }

  /** ISO rendering `YYYY-MM-DD`, Python's `str(date)`. */
  function IsoDate(d: Date): (s: string)
    ensures '?' !in s
  {
    var y := ZeroPad(d.year, 4);
    var m := ZeroPad(d.month, 2);
    var dd := ZeroPad(d.day, 2);
    assert '?' !in y && '?' !in m && '?' !in dd by {
      assert !IsDigit('?');
    }
    y + "-" + m + "-" + dd
  }

  /** The concatenation of a sequence of sequences, in order. */
  function Flatten<T>(ss: seq<seq<T>>): seq<T>
  {
    if ss == [] then [] else Flatten(ss[..|ss| - 1]) + ss[|ss| - 1]
  }

  lemma {:induction false} FlattenAppend<T>(a: seq<seq<T>>, b: seq<seq<T>>)
    ensures Flatten(a + b) == Flatten(a) + Flatten(b)
    decreases |b|
  {
    if b != [] {
      assert (a + b)[..|a + b| - 1] == a + b[..|b| - 1];
      FlattenAppend(a, b[..|b| - 1]);
    } else {
      assert a + b == a;
    }
  }

  lemma FlattenSnoc<T>(ss: seq<seq<T>>, x: seq<T>)
    ensures Flatten(ss + [x]) == Flatten(ss) + x
  {
    assert (ss + [x])[..|ss|] == ss;
  }

  lemma FlattenCons<T>(x: seq<T>, rest: seq<seq<T>>)
    ensures Flatten([x] + rest) == x + Flatten(rest)
  {
    FlattenAppend([x], rest);
    assert [x][..0] == [];
  }
}

=== FILE: day_aggregation.dfy ===
/** The single-pass daily OHLCV reduction of one symbol's partition
    (`make_market_snapshots`, the loop over one partition's bars). */
module DayAggregation {
  import opened Common

  /** Minute of day at which the trading window opens, 09:30. */
  const FirstCandle: int := 9 * 60 + 30
  /** Minute of day at which the trading window closes (exclusive), 15:47. */
  const LastCandle: int := 15 * 60 + 47
  /** The sentinel the running low starts from: `sys.maxsize` on a 64-bit interpreter. */
  const MaxSize: int := 0x7FFF_FFFF_FFFF_FFFF

  /** One minute bar, already converted to exchange-local time: its calendar
      day and its minute of the day. */
  datatype Bar = Bar(day: Date, minute: int, open: int, high: int, low: int, close: int, volume: int)

  /** The per-day accumulator: the day being accumulated, whether that day is
      in the requested range, and the running OHLCV fields. */
  datatype Acc = Acc(day: Date, inRange: bool, open: Option<int>, high: int, low: int, close: Option<int>, volume: int)

  /** One validated daily row of a symbol. */
  datatype Row = Row(symbol: string, open: int, high: int, low: int, close: int, volume: int)

  /** A daily row together with the day it summarises. */
  datatype DayRow = DayRow(day: Date, row: Row)

  predicate InWindow(b: Bar)
  {
    FirstCandle <= b.minute < LastCandle
  }

  /** Python truthiness of an optional number: present and non-zero. */
  predicate Truthy(x: Option<int>)
  {
    x.Some? && x.value != 0
  }

  /** None of the five fields of a row is zero. */
  predicate ValidRow(r: Row)
  {
    r.open != 0 && r.high != 0 && r.low != 0 && r.close != 0 && r.volume != 0
  }

  /** The accumulator with every field at its sentinel. */
  function Fresh(day: Date, inRange: bool): Acc
  {
    Acc(day, inRange, None, 0, MaxSize, None, 0)
  }

  /** Fold one bar into the accumulator: nothing for a day out of range; the
      volume for every bar of the day; open, high, low and close only for bars
      inside the trading window. */
  function Accumulate(acc: Acc, b: Bar): (r: Acc)
    ensures r.day == acc.day && r.inRange == acc.inRange
    ensures !acc.inRange ==> r == acc
    ensures acc.inRange ==> r.volume == acc.volume + b.volume
    ensures !InWindow(b) ==> r == acc.(volume := r.volume)
  {
    if !acc.inRange then acc
    else
      var volume := acc.volume + b.volume;
      if InWindow(b) then
        acc.(open := if Truthy(acc.open) then acc.open else Some(b.open),
             high := if b.high > acc.high then b.high else acc.high,
             low := if b.low < acc.low then b.low else acc.low,
             close := Some(b.close),
             volume := volume)
      else
        acc.(volume := volume)
  }

  /** Close out the accumulated day: at most one row, emitted only when close
      is set and none of open, high, low, close or volume is zero or absent. */
  function CloseOut(symbol: string, acc: Acc): (rows: seq<DayRow>)
    ensures |rows| <= 1
    ensures |rows| == 1 <==> Truthy(acc.open) && acc.high != 0 && acc.low != 0 && Truthy(acc.close) && acc.volume != 0
    ensures forall k :: 0 <= k < |rows| ==>
      rows[k].day == acc.day && rows[k].row.symbol == symbol && ValidRow(rows[k].row)
  {
    if Truthy(acc.close) && Truthy(acc.open) && acc.high != 0 && acc.low != 0 && acc.volume != 0 then
      [DayRow(acc.day, Row(symbol, acc.open.value, acc.high, acc.low, acc.close.value, acc.volume))]
    else
      []
  }

  /** What the loop keeps true of its accumulator: a day marked in range lies
      in the range, and a day out of range has accumulated nothing. */
  predicate AccOk(range: DateRange, acc: Acc)
  {
    (acc.inRange ==> Within(range, acc.day)) && (!acc.inRange ==> acc.close.None?)
  }

  /** The loop over the bars still to come, `rest`. A close-out happens when
      the bar's day differs from the current day or the bar is the last one;
      it runs before the bar is accumulated, then the accumulator restarts for
      the bar's day with the inclusive range test. */
  function Scan(symbol: string, range: DateRange, rest: seq<Bar>, acc: Acc): (rows: seq<DayRow>)
    requires AccOk(range, acc)
    ensures forall k :: 0 <= k < |rows| ==>
      rows[k].row.symbol == symbol && ValidRow(rows[k].row) && Within(range, rows[k].day)
  {
    if rest == [] then []
    else
      var b := rest[0];
      if b.day != acc.day || |rest| == 1 then
        var restart := Fresh(b.day, Within(range, b.day));
        CloseOut(symbol, acc) + Scan(symbol, range, rest[1..], Accumulate(restart, b))
      else
        Scan(symbol, range, rest[1..], Accumulate(acc, b))
  }

  /** The rows one non-empty partition contributes. The first day is compared
      against the range strictly. Every row is valid, carries the symbol, and
      lies within the range. */
  function ReducePartition(symbol: string, range: DateRange, bars: seq<Bar>): (rows: seq<DayRow>)
    requires |bars| > 0
    ensures forall k :: 0 <= k < |rows| ==>
      rows[k].row.symbol == symbol && ValidRow(rows[k].row) && Within(range, rows[k].day)
  {
    var first := bars[0].day;
    Scan(symbol, range, bars, Fresh(first, StrictlyWithin(range, first)))
  }
}

=== FILE: day_aggregation_spec.dfy ===
/** An independent, whole-day description of what the daily reduction emits,
    and the theorems connecting it to the single-pass loop. */
module DayAggregationSpec {
  import opened Common
  import opened DayAggregation

  function Max(a: int, b: int): int { if a >= b then a else b }
  function Min(a: int, b: int): int { if a <= b then a else b }

  /** Total volume of a run of bars, whatever their time of day. */
  function Volume(s: seq<Bar>): int
  {
    if s == [] then 0 else s[0].volume + Volume(s[1..])
  }

  /** The first non-zero open among the bars inside the trading window. */
  function FirstOpen(s: seq<Bar>): (r: Option<int>)
  {
    if s == [] then None
    else if InWindow(s[0]) && s[0].open != 0 then Some(s[0].open)
    else FirstOpen(s[1..])
  }

  /** The close of the last bar inside the trading window. */
  function LastClose(s: seq<Bar>): Option<int>
  {
    if s == [] then None
    else
      var rest := LastClose(s[1..]);
      if rest.Some? then rest
      else if InWindow(s[0]) then Some(s[0].close)
      else None
  }

  /** The highest high inside the trading window, or 0 when there is none. */
  function High(s: seq<Bar>): (r: int)
    ensures r >= 0
  {
    if s == [] then 0
    else if InWindow(s[0]) then Max(s[0].high, High(s[1..]))
    else High(s[1..])
  }

  /** The lowest low inside the trading window, or `MaxSize` when there is none. */
  function Low(s: seq<Bar>): (r: int)
    ensures r <= MaxSize
  {
    if s == [] then MaxSize
    else if InWindow(s[0]) then Min(s[0].low, Low(s[1..]))
    else Low(s[1..])
  }

  /** `FirstOpen` is the open of the earliest window bar whose open is
      non-zero, and is absent exactly when every window bar opens at zero. */
  lemma {:induction false} FirstOpenIsFirstNonZero(s: seq<Bar>)
    ensures FirstOpen(s).Some? ==>
      exists k :: 0 <= k < |s| && InWindow(s[k]) && s[k].open == FirstOpen(s).value && s[k].open != 0
        && forall j :: 0 <= j < k && InWindow(s[j]) ==> s[j].open == 0
    ensures FirstOpen(s).None? <==> forall k :: 0 <= k < |s| && InWindow(s[k]) ==> s[k].open == 0
  {
    if s != [] {
      FirstOpenIsFirstNonZero(s[1..]);
      assert forall k :: 1 <= k < |s| ==> s[k] == s[1..][k - 1];
      if !(InWindow(s[0]) && s[0].open != 0) && FirstOpen(s).Some? {
        var k :| 0 <= k < |s[1..]| && InWindow(s[1..][k]) && s[1..][k].open == FirstOpen(s).value && s[1..][k].open != 0
          && forall j :: 0 <= j < k && InWindow(s[1..][j]) ==> s[1..][j].open == 0;
        assert s[k + 1] == s[1..][k];
      }
    }
  }

  /** `LastClose` is present exactly when some bar is in the window, and is
      then the close of the latest such bar. */
  lemma {:induction false} LastCloseIsLastWindowClose(s: seq<Bar>)
    ensures LastClose(s).Some? <==> exists k :: 0 <= k < |s| && InWindow(s[k])
    ensures LastClose(s).Some? ==>
      exists k :: 0 <= k < |s| && InWindow(s[k]) && s[k].close == LastClose(s).value
        && forall j :: k < j < |s| ==> !InWindow(s[j])
  {
    if s != [] {
      LastCloseIsLastWindowClose(s[1..]);
      assert forall k :: 1 <= k < |s| ==> s[k] == s[1..][k - 1];
      if LastClose(s[1..]).Some? {
        var k :| 0 <= k < |s[1..]| && InWindow(s[1..][k]) && s[1..][k].close == LastClose(s).value
          && forall j :: k < j < |s[1..]| ==> !InWindow(s[1..][j]);
        assert s[k + 1] == s[1..][k];
      }
    }
  }

  /** `High` bounds every window bar's high from above and is either 0 or
      the high of some window bar: the maximum of 0 and the window highs. */
  lemma {:induction false} HighIsWindowMax(s: seq<Bar>)
    ensures forall k :: 0 <= k < |s| && InWindow(s[k]) ==> s[k].high <= High(s)
    ensures High(s) == 0 || exists k :: 0 <= k < |s| && InWindow(s[k]) && s[k].high == High(s)
  {
    if s != [] {
      HighIsWindowMax(s[1..]);
      assert forall k :: 1 <= k < |s| ==> s[k] == s[1..][k - 1];
    }
  }

  /** `Low` bounds every window bar's low from below and is either `MaxSize`
      or the low of some window bar. */
  lemma {:induction false} LowIsWindowMin(s: seq<Bar>)
    ensures forall k :: 0 <= k < |s| && InWindow(s[k]) ==> Low(s) <= s[k].low
    ensures Low(s) == MaxSize || exists k :: 0 <= k < |s| && InWindow(s[k]) && s[k].low == Low(s)
  {
    if s != [] {
      LowIsWindowMin(s[1..]);
      assert forall k :: 1 <= k < |s| ==> s[k] == s[1..][k - 1];
    }
  }

  /** A day's bars yield a row when its close is present and non-zero and none
      of open, high, low or volume is zero or absent. */
  predicate DayValid(s: seq<Bar>)
  {
    && LastClose(s).Some? && LastClose(s).value != 0
    && FirstOpen(s).Some? && High(s) != 0 && Low(s) != 0 && Volume(s) != 0
  }

  function DaySummary(symbol: string, s: seq<Bar>): Row
    requires DayValid(s)
  {
    Row(symbol, FirstOpen(s).value, High(s), Low(s), LastClose(s).value, Volume(s))
  }

  /** The number of leading bars of `s` on day `d`. */
  function RunLength(s: seq<Bar>, d: Date): (k: nat)
    ensures k <= |s|
    ensures forall j :: 0 <= j < k ==> s[j].day == d
    ensures k < |s| ==> s[k].day != d
  {
    if s == [] || s[0].day != d then 0
    else
      var k := RunLength(s[1..], d);
      assert forall j :: 1 <= j <= k ==> s[j] == s[1..][j - 1];
      1 + k
  }

  /** The row a maximal run of one day's bars contributes, if any. */
  function RunRow(symbol: string, d: Date, inRange: bool, run: seq<Bar>): seq<DayRow>
  {
    if inRange && DayValid(run) then [DayRow(d, DaySummary(symbol, run))] else []
  }

  /** The rows of `s` day by day: each maximal run of same-day bars yields the
      summary of that run when its day is in range. The first run is compared
      strictly, all later runs inclusively. */
  function DayRows(symbol: string, range: DateRange, s: seq<Bar>, first: bool): seq<DayRow>
    decreases |s|
  {
    if s == [] then []
    else
      var d := s[0].day;
      var k := RunLength(s, d);
      var inRange := if first then StrictlyWithin(range, d) else Within(range, d);
      RunRow(symbol, d, inRange, s[..k]) + DayRows(symbol, range, s[k..], false)
  }

  /** The accumulator after folding a sequence of bars into it. */
  function Fold(acc: Acc, s: seq<Bar>): Acc
    decreases |s|
  {
    if s == [] then acc else Fold(Accumulate(acc, s[0]), s[1..])
  }

  lemma {:induction false} FoldOutOfRange(acc: Acc, s: seq<Bar>)
    requires !acc.inRange
    ensures Fold(acc, s) == acc
    decreases |s|
  {
    if s != [] {
      FoldOutOfRange(Accumulate(acc, s[0]), s[1..]);
    }
  }

  /** Folding an in-range accumulator over bars adds their total volume, the
      window's high and low, its last close, and (when open is still unset or
      zero) its first non-zero open. */
  lemma {:induction false} FoldSummary(acc: Acc, s: seq<Bar>)
    requires acc.inRange && acc.high >= 0 && acc.low <= MaxSize
    ensures Fold(acc, s).day == acc.day
    ensures Fold(acc, s).volume == acc.volume + Volume(s)
    ensures Fold(acc, s).high == Max(acc.high, High(s))
    ensures Fold(acc, s).low == Min(acc.low, Low(s))
    ensures Fold(acc, s).close == if LastClose(s).Some? then LastClose(s) else acc.close
    ensures Truthy(acc.open) ==> Fold(acc, s).open == acc.open
    ensures !Truthy(acc.open) ==>
      (Truthy(Fold(acc, s).open) <==> FirstOpen(s).Some?) && (FirstOpen(s).Some? ==> Fold(acc, s).open == FirstOpen(s))
    decreases |s|
  {
    if s != [] {
      var next := Accumulate(acc, s[0]);
      FoldSummary(next, s[1..]);
    }
  }

  /** Folding a run into a fresh accumulator and closing it out emits exactly
      the run's summary row, when the run's day is in range and valid. */
  lemma FreshRun(symbol: string, d: Date, inRange: bool, run: seq<Bar>)
    ensures CloseOut(symbol, Fold(Fresh(d, inRange), run)) == RunRow(symbol, d, inRange, run)
  {
    if inRange {
      FoldSummary(Fresh(d, inRange), run);
    } else {
      FoldOutOfRange(Fresh(d, inRange), run);
    }
  }

  /** The same day-by-day walk as `DayRows`, each run's row obtained by
      folding the run into a fresh accumulator and closing it out. */
  function DayFolds(symbol: string, range: DateRange, s: seq<Bar>, first: bool): seq<DayRow>
    decreases |s|
  {
    if s == [] then []
    else
      var d := s[0].day;
      var k := RunLength(s, d);
      var inRange := if first then StrictlyWithin(range, d) else Within(range, d);
      CloseOut(symbol, Fold(Fresh(d, inRange), s[..k])) + DayFolds(symbol, range, s[k..], false)
  }

  lemma {:induction false} DayFoldsAreDayRows(symbol: string, range: DateRange, s: seq<Bar>, first: bool)
    ensures DayFolds(symbol, range, s, first) == DayRows(symbol, range, s, first)
    decreases |s|
  {
    if s != [] {
      var d := s[0].day;
      var k := RunLength(s, d);
      FreshRun(symbol, d, if first then StrictlyWithin(range, d) else Within(range, d), s[..k]);
      DayFoldsAreDayRows(symbol, range, s[k..], false);
    }
  }

  /** The loop over `body + [last]` first finishes the current day's run of
      `body`, then emits the later runs of `body`; `last` never counts. */
  lemma {:induction false} ScanBody(symbol: string, range: DateRange, body: seq<Bar>, last: Bar, acc: Acc)
    requires AccOk(range, acc)
    ensures
      var k := RunLength(body, acc.day);
      Scan(symbol, range, body + [last], acc)
        == CloseOut(symbol, Fold(acc, body[..k])) + DayFolds(symbol, range, body[k..], false)
    decreases |body|
  {
    var rest := body + [last];
    if body == [] {
      assert rest[1..] == [];
    } else {
      var b := body[0];
      assert rest[0] == b && rest[1..] == body[1..] + [last];
      if b.day != acc.day {
        var restart := Accumulate(Fresh(b.day, Within(range, b.day)), b);
        ScanBody(symbol, range, body[1..], last, restart);
        DayChangeStep(symbol, range, body, b.day, Within(range, b.day));
      } else {
        var next := Accumulate(acc, b);
        ScanBody(symbol, range, body[1..], last, next);
        SameDayStep(body, acc);
      }
    }
  }

  /** Where `body` starts a new day `d`: its first run, folded from a fresh
      accumulator, is the first bar followed by the rest of that run. */
  lemma DayChangeStep(symbol: string, range: DateRange, body: seq<Bar>, d: Date, inRange: bool)
    requires body != [] && body[0].day == d && inRange == Within(range, d)
    ensures
      var k := RunLength(body[1..], d);
      DayFolds(symbol, range, body, false)
        == CloseOut(symbol, Fold(Accumulate(Fresh(d, inRange), body[0]), body[1..][..k]))
           + DayFolds(symbol, range, body[1..][k..], false)
  {
    var k := RunLength(body[1..], d);
    assert RunLength(body, d) == 1 + k;
    assert body[..1 + k][0] == body[0] && body[..1 + k][1..] == body[1..][..k];
    assert body[1 + k..] == body[1..][k..];
  }

  /** Where `body` continues the accumulator's day: its first run is the first
      bar followed by the rest of that run. */
  lemma SameDayStep(body: seq<Bar>, acc: Acc)
    requires body != [] && body[0].day == acc.day
    ensures
      var k := RunLength(body[1..], acc.day);
      && RunLength(body, acc.day) == 1 + k
      && Fold(acc, body[..1 + k]) == Fold(Accumulate(acc, body[0]), body[1..][..k])
      && body[1 + k..] == body[1..][k..]
  {
    var k := RunLength(body[1..], acc.day);
    assert body[..1 + k][0] == body[0] && body[..1 + k][1..] == body[1..][..k];
  }

  /** Main theorem: the partition's rows are the day-by-day summaries of all
      its bars but the last, the first day compared strictly against the range
      and every later day inclusively. */
  lemma ReduceIsDayRows(symbol: string, range: DateRange, bars: seq<Bar>)
    requires |bars| > 0
    ensures ReducePartition(symbol, range, bars) == DayRows(symbol, range, bars[..|bars| - 1], true)
  {
    var n := |bars|;
    var d := bars[0].day;
    var acc := Fresh(d, StrictlyWithin(range, d));
    var body := bars[..n - 1];
    assert bars == body + [bars[n - 1]];
    ScanBody(symbol, range, body, bars[n - 1], acc);
    DayFoldsAreDayRows(symbol, range, body, true);
    if body != [] {
      assert body[0] == bars[0];
    }
  }

  /** The final bar of a partition never contributes to any row: replacing it
      by any other bar leaves the partition's rows unchanged. */
  lemma LastBarNeverCounted(symbol: string, range: DateRange, bars: seq<Bar>, other: Bar)
    requires |bars| > 0
    ensures ReducePartition(symbol, range, bars)
         == ReducePartition(symbol, range, bars[..|bars| - 1] + [other])
  {
    var replaced := bars[..|bars| - 1] + [other];
    ReduceIsDayRows(symbol, range, bars);
    ReduceIsDayRows(symbol, range, replaced);
    assert replaced[..|replaced| - 1] == bars[..|bars| - 1];
  }

  /** Every row `DayRows` emits is for a day some bar of `s` falls on. */
  lemma {:induction false} DayRowsDays(symbol: string, range: DateRange, s: seq<Bar>, first: bool)
    ensures forall r :: r in DayRows(symbol, range, s, first) ==> exists j :: 0 <= j < |s| && s[j].day == r.day
    decreases |s|
  {
    if s != [] {
      var d := s[0].day;
      var k := RunLength(s, d);
      DayRowsDays(symbol, range, s[k..], false);
      forall r | r in DayRows(symbol, range, s, first)
        ensures exists j :: 0 <= j < |s| && s[j].day == r.day
      {
        if r !in RunRow(symbol, d, if first then StrictlyWithin(range, d) else Within(range, d), s[..k]) {
          var j :| 0 <= j < |s[k..]| && s[k..][j].day == r.day;
          assert s[k + j] == s[k..][j];
        }
      }
    }
  }

  /** Bars in chronological order of their days. */
  predicate Chronological(bars: seq<Bar>)
  {
    forall i, j :: 0 <= i <= j < |bars| ==> DateLe(bars[i].day, bars[j].day)
  }

  /** Rows for strictly increasing days, so no day has two rows. */
  predicate IncreasingDays(rows: seq<DayRow>)
  {
    forall i, j :: 0 <= i < j < |rows| ==> DateLt(rows[i].day, rows[j].day)
  }

  /** In a chronological sequence, `DayRows` emits its rows for strictly
      increasing days, none of them before the first bar's day. */
  lemma {:induction false} DayRowsIncreasing(symbol: string, range: DateRange, s: seq<Bar>, first: bool)
    requires Chronological(s)
    ensures s != [] ==> forall r :: r in DayRows(symbol, range, s, first) ==> DateLe(s[0].day, r.day)
    ensures IncreasingDays(DayRows(symbol, range, s, first))
    decreases |s|
  {
    if s != [] {
      var d := s[0].day;
      var k := RunLength(s, d);
      var tail := s[k..];
      assert Chronological(tail) by {
        forall i, j | 0 <= i <= j < |tail| ensures DateLe(tail[i].day, tail[j].day) {
          assert tail[i] == s[k + i] && tail[j] == s[k + j];
        }
      }
      DayRowsIncreasing(symbol, range, tail, false);
      var head := RunRow(symbol, d, if first then StrictlyWithin(range, d) else Within(range, d), s[..k]);
      var rest := DayRows(symbol, range, tail, false);
      assert DayRows(symbol, range, s, first) == head + rest;
      if tail != [] {
        assert tail[0] == s[k] && s[k].day != d && DateLe(d, s[k].day);
        forall r | r in rest ensures DateLt(d, r.day) {
          assert DateLe(tail[0].day, r.day);
        }
      }
      var rows := head + rest;
      forall i, j | 0 <= i < j < |rows| ensures DateLt(rows[i].day, rows[j].day) {
        if i < |head| {
          assert rows[i] == head[i] && rows[i].day == d;
          assert rows[j] == rest[j - |head|] && rows[j] in rest;
        } else {
          assert rows[i] == rest[i - |head|] && rows[j] == rest[j - |head|];
          assert IncreasingDays(rest);
        }
      }
    }
  }

  /** A chronological partition yields at most one row per day: the days of
      its rows strictly increase. */
  lemma OneRowPerDay(symbol: string, range: DateRange, bars: seq<Bar>)
    requires |bars| > 0 && Chronological(bars)
    ensures IncreasingDays(ReducePartition(symbol, range, bars))
  {
    ReduceIsDayRows(symbol, range, bars);
    var body := bars[..|bars| - 1];
    assert Chronological(body) by {
      forall i, j | 0 <= i <= j < |body| ensures DateLe(body[i].day, body[j].day) {
        assert body[i] == bars[i] && body[j] == bars[j];
      }
    }
    DayRowsIncreasing(symbol, range, body, true);
  }

  /** The strict test on a partition's first day: a chronological partition
      whose first day is the start or the end of the range yields no row for
      that day. */
  lemma FirstDayAtRangeEdgeDropped(symbol: string, range: DateRange, bars: seq<Bar>)
    requires |bars| > 0 && Chronological(bars)
    requires bars[0].day == range.start || bars[0].day == range.end
    ensures forall r :: r in ReducePartition(symbol, range, bars) ==> r.day != bars[0].day
  {
    ReduceIsDayRows(symbol, range, bars);
    var body := bars[..|bars| - 1];
    if body != [] {
      var d := bars[0].day;
      assert body[0].day == d;
      var k := RunLength(body, d);
      assert !StrictlyWithin(range, d);
      DayRowsDays(symbol, range, body[k..], false);
      forall r | r in ReducePartition(symbol, range, bars) ensures r.day != d {
        var j :| 0 <= j < |body[k..]| && body[k..][j].day == r.day;
        assert body[k + j] == body[k..][j];
        assert body[k] == bars[k] && body[k + j] == bars[k + j];
        assert bars[k].day != d;
        assert DateLe(bars[0].day, bars[k].day) && DateLe(bars[k].day, bars[k + j].day);
      }
    }
  }

  /** A day with one bar inside the window and one after it: OHLC come from
      the window bar alone, volume from both. A later bar closes the day. */
  lemma WindowAndVolumeExample()
    ensures
      var range := DateRange(Date(2023, 1, 2), Date(2023, 1, 4));
      var bars := [Bar(Date(2023, 1, 3), 570, 10, 10, 10, 10, 100),
                   Bar(Date(2023, 1, 3), 960, 11, 11, 11, 11, 50),
                   Bar(Date(2023, 1, 4), 600, 12, 12, 12, 12, 70)];
      ReducePartition("ABC", range, bars) == [DayRow(Date(2023, 1, 3), Row("ABC", 10, 10, 10, 10, 150))]
  {
    var range := DateRange(Date(2023, 1, 2), Date(2023, 1, 4));
    var bars := [Bar(Date(2023, 1, 3), 570, 10, 10, 10, 10, 100),
                 Bar(Date(2023, 1, 3), 960, 11, 11, 11, 11, 50),
                 Bar(Date(2023, 1, 4), 600, 12, 12, 12, 12, 70)];
    var acc0 := Fresh(Date(2023, 1, 3), true);
    var acc1 := Accumulate(acc0, bars[0]);
    var acc2 := Accumulate(acc1, bars[1]);
    assert acc2 == Acc(Date(2023, 1, 3), true, Some(10), 10, 10, Some(10), 150);
    assert bars[1..][1..] == [bars[2]];
  }

  /** The same day as the first bars of a partition whose first day is the
      range's start: the strict first-day test drops it, and the final bar is
      never counted, so no row results. */
  lemma FirstDayAtStartExample()
    ensures
      var range := DateRange(Date(2023, 1, 3), Date(2023, 1, 4));
      var bars := [Bar(Date(2023, 1, 3), 570, 10, 10, 10, 10, 100),
                   Bar(Date(2023, 1, 3), 960, 11, 11, 11, 11, 50)];
      ReducePartition("ABC", range, bars) == []
  {
    var range := DateRange(Date(2023, 1, 3), Date(2023, 1, 4));
    var bars := [Bar(Date(2023, 1, 3), 570, 10, 10, 10, 10, 100),
                 Bar(Date(2023, 1, 3), 960, 11, 11, 11, 11, 50)];
    assert !StrictlyWithin(range, Date(2023, 1, 3));
    assert bars[1..] == [bars[1]];
  }

  /** A day whose only bars lie outside the trading window yields no row,
      although its volume is positive. */
  lemma NoWindowBarExample()
    ensures
      var range := DateRange(Date(2023, 1, 2), Date(2023, 1, 4));
      var bars := [Bar(Date(2023, 1, 3), 960, 11, 11, 11, 11, 50),
                   Bar(Date(2023, 1, 4), 600, 12, 12, 12, 12, 70)];
      ReducePartition("ABC", range, bars) == []
  {
    var bars := [Bar(Date(2023, 1, 3), 960, 11, 11, 11, 11, 50),
                 Bar(Date(2023, 1, 4), 600, 12, 12, 12, 12, 70)];
    assert bars[1..] == [bars[1]];
  }
}

=== FILE: even_split.dfy ===
/** Splitting the symbol universe into a fixed number of shards
    (`evenly_split_list`). */
module EvenSplit {
  import opened Common

  /** `lst` cut into `x` consecutive pieces; the first `|lst| % x` pieces hold
      one element more than the others. A negative count yields no pieces
      (Python's `range(x)` is empty); a zero count raises, so it is excluded. */
  method EvenlySplit<T>(lst: seq<T>, x: int) returns (result: seq<seq<T>>)
    requires x != 0
    ensures x < 0 ==> result == []
    ensures x > 0 ==> |result| == x && Flatten(result) == lst
    ensures x > 0 ==> forall i :: 0 <= i < x ==>
      |result[i]| == if i < |lst| % x then |lst| / x + 1 else |lst| / x
    ensures forall i, j :: 0 <= i < |result| && 0 <= j < |result| ==> |result[i]| <= |result[j]| + 1
  {
    if x < 0 {
      return [];
    }
    result := CutPieces(lst, x);
    SplitDone(lst, x, result);
  }

  /** The loop of `evenly_split_list`: cut the `x` pieces one after another. */
  method CutPieces<T>(lst: seq<T>, x: int) returns (result: seq<seq<T>>)
    requires x > 0
    ensures SplitSoFar(lst, |lst| / x, |lst| % x, result, x, |lst|)
  {
    var avg: nat := |lst| / x;
    var remainder: nat := |lst| % x;
    result := [];
    var idx: nat := 0;
    var i := 0;
    while i < x
      invariant 0 <= i <= x
      invariant SplitSoFar(lst, avg, remainder, result, i, idx)
    {
      var size := PieceSize(i, avg, remainder);
      StartWithin(|lst|, x, i + 1);
      SplitStep(lst, avg, remainder, result, i, idx);
      result := result + [lst[idx..idx + size]];
      idx := idx + size;
      i := i + 1;
    }
    StartWithin(|lst|, x, x);
  }

  /** All `x` pieces cut: they cover the list, and their sizes are as promised. */
  lemma SplitDone<T>(lst: seq<T>, x: int, result: seq<seq<T>>)
    requires x > 0
    requires SplitSoFar(lst, |lst| / x, |lst| % x, result, x, |lst|)
    ensures |result| == x && Flatten(result) == lst
    ensures forall i :: 0 <= i < x ==> |result[i]| == if i < |lst| % x then |lst| / x + 1 else |lst| / x
    ensures forall i, j :: 0 <= i < |result| && 0 <= j < |result| ==> |result[i]| <= |result[j]| + 1
  {
    assert lst[..|lst|] == lst;
  }

  /** The size of piece `i` when every piece gets `avg` elements and the first
      `remainder` pieces one more. */
  function PieceSize(i: nat, avg: nat, remainder: nat): nat
  {
    if i < remainder then avg + 1 else avg
  }

  /** Where piece `i` starts: the sizes of the pieces before it, summed. */
  function Start(i: nat, avg: nat, remainder: nat): nat
  {
    if i == 0 then 0 else Start(i - 1, avg, remainder) + PieceSize(i - 1, avg, remainder)
  }

  lemma {:induction false} StartClosed(i: nat, avg: nat, remainder: nat)
    ensures Start(i, avg, remainder) == i * avg + (if i < remainder then i else remainder)
  {
    if i > 0 {
      StartClosed(i - 1, avg, remainder);
      MulStep(i - 1, avg);
    }
  }

  /** Cutting `n` elements `x` ways: every piece starts within the list, and
      the `x` pieces end exactly at its end. */
  lemma StartWithin(n: nat, x: int, i: nat)
    requires x > 0 && i <= x
    ensures Start(i, n / x, n % x) <= n
    ensures Start(x, n / x, n % x) == n
  {
    var avg, remainder := n / x, n % x;
    StartClosed(i, avg, remainder);
    StartClosed(x, avg, remainder);
    MulMono(i, x, avg);
    assert x * avg + remainder == n;
  }

  /** The first `i` pieces have been cut, they end at `idx`, and each has its
      final size. */
  ghost predicate SplitSoFar<T>(lst: seq<T>, avg: nat, remainder: nat, result: seq<seq<T>>, i: nat, idx: nat)
  {
    && |result| == i
    && idx == Start(i, avg, remainder)
    && idx <= |lst|
    && Flatten(result) == lst[..idx]
    && forall j :: 0 <= j < i ==> |result[j]| == PieceSize(j, avg, remainder)
  }

  /** Cutting the next piece keeps the loop's invariant. */
  lemma SplitStep<T>(lst: seq<T>, avg: nat, remainder: nat, result: seq<seq<T>>, i: nat, idx: nat)
    requires SplitSoFar(lst, avg, remainder, result, i, idx)
    requires Start(i + 1, avg, remainder) <= |lst|
    ensures idx + PieceSize(i, avg, remainder) <= |lst|
    ensures SplitSoFar(lst, avg, remainder, result + [lst[idx..idx + PieceSize(i, avg, remainder)]],
                       i + 1, idx + PieceSize(i, avg, remainder))
  {
    var size := PieceSize(i, avg, remainder);
    var next := result + [lst[idx..idx + size]];
    FlattenSnoc(result, lst[idx..idx + size]);
    PrefixExtend(lst, idx, idx + size);
    assert forall j :: 0 <= j < i ==> next[j] == result[j];
  }

  lemma PrefixExtend<T>(s: seq<T>, a: int, b: int)
    requires 0 <= a <= b <= |s|
    ensures s[..b] == s[..a] + s[a..b]
  {
  }

  lemma MulStep(i: int, a: int)
    ensures (i + 1) * a == i * a + a
  {
  }

  lemma MulMono(i: int, x: int, a: int)
    requires i <= x && a >= 0
    ensures i * a <= x * a
  {
    MulStep(0, 0);
    assert x * a - i * a == (x - i) * a;
  }
}

=== FILE: ingestion.dfy ===
/** The download loop (`download_symbols_aggs` with `__fetch_minute_aggs`):
    round after round, request one page per symbol still being fetched,
    retrying failed requests, and handle the pages in whatever order they
    complete, until no symbol is left. */
module Ingestion {
  import opened Common
  import opened PageStore
  import opened Pagination
  import opened Retry

  /** Every attempt at `url` within the retry budget, attempts 0 to 10,
      fails. */
  predicate AllAttemptsFail(server: (string, nat) -> Option<Page>, url: string)
  {
    forall k :: 0 <= k <= MaxRetries ==> server(url, k).None?
  }

  /** `p` is the answer to the first attempt at `url` that succeeded, attempt
      `k`, within the retry budget. */
  predicate FirstAnswer(server: (string, nat) -> Option<Page>, url: string, k: nat, p: Page)
  {
    && k <= MaxRetries
    && server(url, k) == Some(p)
    && forall j :: 0 <= j < k ==> server(url, j).None?
  }

  /** A request for `url` with the retry policy. */
  function FetchUrl(server: (string, nat) -> Option<Page>, url: string): (r: Fetch<Page>)
    ensures r.Fatal? <==> AllAttemptsFail(server, url)
    ensures r.Fetched? ==> FirstAnswer(server, url, r.index, r.value)
  {
    var attempt: nat -> Option<Page> := (k: nat) => server(url, k);
    assert forall k: nat :: attempt(k) == server(url, k);
    FetchWithRetry(attempt)
  }

  /** The first answer is the one the retry policy returns: whatever attempt
      and page satisfy `FirstAnswer`, `FetchUrl` fetches exactly that page at
      exactly that attempt. */
  lemma FirstAnswerIsFetched(server: (string, nat) -> Option<Page>, url: string, k: nat, p: Page)
    requires FirstAnswer(server, url, k, p)
    ensures FetchUrl(server, url).Fetched?
    ensures FetchUrl(server, url).index == k && FetchUrl(server, url).value == p
  {
  }

  /** What handling one request does: its page, returned by attempt `index`,
      was handled; the request failed on every attempt; or its page raised. */
  datatype Step =
    | Handled(page: Page, index: nat, next: IngestState)
    | Halted
    | Raised(page: Page, index: nat, error: IngestError)

  /** Request `url` with retries and handle the page it returns. */
  function FetchAndHandle(current: IngestState, url: string, server: (string, nat) -> Option<Page>, apiKey: string): (r: Step)
    ensures r.Halted? <==> AllAttemptsFail(server, url)
    ensures !r.Halted? ==> FirstAnswer(server, url, r.index, r.page)
    ensures r.Handled? ==> HandlePage(current, r.page, apiKey) == Ok(r.next)
    ensures r.Raised? ==> HandlePage(current, r.page, apiKey) == Err(r.error)
  {
    var fetched := FetchUrl(server, url);
    if fetched.Fatal? then Halted
    else
      match HandlePage(current, fetched.value, apiKey)
      case Ok(next) => Handled(fetched.value, fetched.index, next)
      case Err(e) => Raised(fetched.value, fetched.index, e)
  }

  /** In a round from `st`, `pages[i]` is what attempt `ks[i]` of the request
      for the live symbol `syms[i]` returned, every earlier attempt having
      failed, and no symbol is requested twice. */
  predicate Served(st: IngestState, range: DateRange, apiKey: string, server: (string, nat) -> Option<Page>,
                   syms: seq<string>, ks: seq<nat>, pages: seq<Page>)
  {
    && |syms| == |ks| == |pages|
    && (forall i, j :: 0 <= i < j < |syms| ==> syms[i] != syms[j])
    && (forall i :: 0 <= i < |syms| ==>
          && syms[i] in st.live
          && FirstAnswer(server, RequestUrl(st, syms[i], range, apiKey), ks[i], pages[i]))
  }

  /** One more answer to a request not yet answered. */
  lemma ServedSnoc(st: IngestState, range: DateRange, apiKey: string, server: (string, nat) -> Option<Page>,
                   syms: seq<string>, ks: seq<nat>, pages: seq<Page>, s: string, k: nat, p: Page)
    requires Served(st, range, apiKey, server, syms, ks, pages)
    requires s in st.live && s !in syms
    requires FirstAnswer(server, RequestUrl(st, s, range, apiKey), k, p)
    ensures Served(st, range, apiKey, server, syms + [s], ks + [k], pages + [p])
  {
    var syms', ks', pages' := syms + [s], ks + [k], pages + [p];
    forall i | 0 <= i < |syms'|
      ensures && syms'[i] in st.live
              && FirstAnswer(server, RequestUrl(st, syms'[i], range, apiKey), ks'[i], pages'[i])
    {
      if i < |syms| {
        assert syms'[i] == syms[i] && ks'[i] == ks[i] && pages'[i] == pages[i];
      }
    }
    forall i, j | 0 <= i < j < |syms'| ensures syms'[i] != syms'[j] {
      if j == |syms| {
        assert syms'[i] == syms[i] && syms'[j] == s;
      } else {
        assert syms'[i] == syms[i] && syms'[j] == syms[j];
      }
    }
  }

  /** Moving `s` from the pending symbols to the requested ones keeps every
      live symbol in exactly one of the two. */
  lemma PendingStep(live: set<string>, pending: set<string>, syms: seq<string>, s: string)
    requires pending <= live && s in pending
    requires forall t :: t in live ==> (t in pending <==> t !in syms)
    ensures pending - {s} <= live
    ensures forall t :: t in live ==> (t in pending - {s} <==> t !in syms + [s])
  {
  }

  /** One step of a round: handling the first answer to the request for a
      pending symbol keeps the round's invariant, with that symbol moved from
      the pending ones to the requested ones. */
  lemma HandledStep(st: IngestState, range: DateRange, apiKey: string, server: (string, nat) -> Option<Page>,
                    pending: set<string>, current: IngestState,
                    syms: seq<string>, ks: seq<nat>, pages: seq<Page>, s: string)
    requires pending <= st.live && s in pending
    requires forall t :: t in st.live ==> (t in pending <==> t !in syms)
    requires Served(st, range, apiKey, server, syms, ks, pages)
    requires Round(st, pages, apiKey) == Ok(current)
    requires FetchAndHandle(current, RequestUrl(st, s, range, apiKey), server, apiKey).Handled?
    ensures var r := FetchAndHandle(current, RequestUrl(st, s, range, apiKey), server, apiKey);
      && pending - {s} <= st.live
      && (forall t :: t in st.live ==> (t in pending - {s} <==> t !in syms + [s]))
      && Served(st, range, apiKey, server, syms + [s], ks + [r.index], pages + [r.page])
      && Round(st, pages + [r.page], apiKey) == Ok(r.next)
  {
    var r := FetchAndHandle(current, RequestUrl(st, s, range, apiKey), server, apiKey);
    RoundSnoc(st, pages, r.page, apiKey);
    ServedSnoc(st, range, apiKey, server, syms, ks, pages, s, r.index, r.page);
    PendingStep(st.live, pending, syms, s);
  }

  /** When every page carries the ticker it was requested for, a round's
      pages are of different symbols, so the order in which they complete
      does not matter (`Pagination.RoundOrderIrrelevant`). */
  lemma ServedDistinct(st: IngestState, range: DateRange, apiKey: string, server: (string, nat) -> Option<Page>,
                       syms: seq<string>, ks: seq<nat>, pages: seq<Page>)
    requires Served(st, range, apiKey, server, syms, ks, pages)
    requires forall i :: 0 <= i < |pages| ==> pages[i].ticker == syms[i]
    ensures Distinct(pages)
  {
    forall i, j | 0 <= i < j < |pages| ensures pages[i].ticker != pages[j].ticker {
      assert syms[i] != syms[j];
    }
  }

  /** How one round ends: every page handled; the request for `symbol`
      failed on every attempt; or the page attempt `index` of the request for
      `symbol` returned raised. */
  datatype RoundOutcome =
    | RoundDone(state: IngestState)
    | RoundStopped(state: IngestState, symbol: string, url: string)
    | RoundFailed(state: IngestState, symbol: string, index: nat, page: Page, error: IngestError)

  /** One round: one request per symbol being fetched at the round's start,
      each retried on failure, the pages handled in an arbitrary order.
      `pages` are the pages handled, in the order handled; `syms` and `ks`
      say which request and which attempt each came from. */
  method RunRound(st: IngestState, range: DateRange, apiKey: string, server: (string, nat) -> Option<Page>)
    returns (res: RoundOutcome, pages: seq<Page>, syms: seq<string>, ks: seq<nat>)
    ensures Round(st, pages, apiKey) == Ok(res.state)
    ensures Served(st, range, apiKey, server, syms, ks, pages)
    ensures res.RoundDone? ==> forall s :: s in st.live <==> s in syms
    ensures res.RoundStopped? ==>
      && res.symbol in st.live && res.symbol !in syms
      && res.url == RequestUrl(st, res.symbol, range, apiKey)
      && AllAttemptsFail(server, res.url)
    ensures res.RoundFailed? ==>
      && res.symbol in st.live && res.symbol !in syms
      && FirstAnswer(server, RequestUrl(st, res.symbol, range, apiKey), res.index, res.page)
      && HandlePage(res.state, res.page, apiKey) == Err(res.error)
  {
    var pending := st.live;
    var current := st;
    pages, syms, ks := [], [], [];
    while pending != {}
      invariant pending <= st.live
      invariant forall s :: s in st.live ==> (s in pending <==> s !in syms)
      invariant Served(st, range, apiKey, server, syms, ks, pages)
      invariant Round(st, pages, apiKey) == Ok(current)
      decreases |pending|
    {
      var s :| s in pending;
      var url := RequestUrl(st, s, range, apiKey);
      match FetchAndHandle(current, url, server, apiKey)
      case Halted =>
        return RoundStopped(current, s, url), pages, syms, ks;
      case Raised(page, index, error) =>
        return RoundFailed(current, s, index, page, error), pages, syms, ks;
      case Handled(page, index, next) =>
        HandledStep(st, range, apiKey, server, pending, current, syms, ks, pages, s);
        pages, syms, ks := pages + [page], syms + [s], ks + [index];
        current := next;
        pending := pending - {s};
    }
    return RoundDone(current), pages, syms, ks;
  }

  /** The record of one whole or partial round. */
  datatype RoundLog = RoundLog(syms: seq<string>, ks: seq<nat>, pages: seq<Page>)

  /** `entry` is a whole round from `st`: a round starts only while some
      symbol is still being fetched, it requests every such symbol once, and
      its pages are the server's answers to those requests, handled without
      raising. */
  ghost predicate WholeRound(st: IngestState, entry: RoundLog, range: DateRange, apiKey: string,
                             server: (string, nat) -> Option<Page>)
  {
    && st.live != {}
    && Served(st, range, apiKey, server, entry.syms, entry.ks, entry.pages)
    && (forall s :: s in st.live <==> s in entry.syms)
    && Round(st, entry.pages, apiKey).Ok?
  }

  /** The whole rounds of `log`, one after another, take `st` to `final`. */
  ghost predicate Runs(st: IngestState, log: seq<RoundLog>, range: DateRange, apiKey: string,
                       server: (string, nat) -> Option<Page>, final: IngestState)
    decreases |log|
  {
    if log == [] then final == st
    else
      && WholeRound(st, log[0], range, apiKey, server)
      && Runs(Round(st, log[0].pages, apiKey).value, log[1..], range, apiKey, server, final)
  }

  /** A single whole round is a run. */
  lemma RunsOne(st: IngestState, entry: RoundLog, range: DateRange, apiKey: string,
                server: (string, nat) -> Option<Page>)
    requires WholeRound(st, entry, range, apiKey, server)
    ensures Runs(st, [entry], range, apiKey, server, Round(st, entry.pages, apiKey).value)
  {
    var final := Round(st, entry.pages, apiKey).value;
    assert [entry][0] == entry && [entry][1..] == [];
    assert Runs(final, [], range, apiKey, server, final);
  }

  lemma SnocSplit<T>(xs: seq<T>, x: T)
    requires xs != []
    ensures xs + [x] == [xs[0]] + (xs[1..] + [x])
  {
  }

  /** A whole round followed by a run is a run. */
  lemma RunsCons(st: IngestState, entry: RoundLog, tail: seq<RoundLog>, range: DateRange, apiKey: string,
                 server: (string, nat) -> Option<Page>, final: IngestState)
    requires WholeRound(st, entry, range, apiKey, server)
    requires Runs(Round(st, entry.pages, apiKey).value, tail, range, apiKey, server, final)
    ensures Runs(st, [entry] + tail, range, apiKey, server, final)
  {
    var log := [entry] + tail;
    assert log[0] == entry && log[1..] == tail;
  }

  /** Extending a run by one more whole round. */
  lemma {:induction false} RunsSnoc(st: IngestState, log: seq<RoundLog>, range: DateRange, apiKey: string,
                                    server: (string, nat) -> Option<Page>, mid: IngestState, entry: RoundLog)
    requires Runs(st, log, range, apiKey, server, mid)
    requires WholeRound(mid, entry, range, apiKey, server)
    ensures Runs(st, log + [entry], range, apiKey, server, Round(mid, entry.pages, apiKey).value)
    decreases |log|
  {
    if log == [] {
      assert log + [entry] == [entry];
      RunsOne(st, entry, range, apiKey, server);
    } else {
      var next := Round(st, log[0].pages, apiKey).value;
      var tail := log[1..] + [entry];
      assert WholeRound(st, log[0], range, apiKey, server) && Runs(next, log[1..], range, apiKey, server, mid);
      RunsSnoc(next, log[1..], range, apiKey, server, mid, entry);
      SnocSplit(log, entry);
      RunsCons(st, log[0], tail, range, apiKey, server, Round(mid, entry.pages, apiKey).value);
    }
  }

  /** How a download ends: every symbol finished; the round budget ran out
      with symbols still being fetched; the request for `symbol` failed on
      every attempt; or the page attempt `index` of the request for `symbol`
      returned raised. */
  datatype Outcome =
    | Completed(state: IngestState)
    | OutOfRounds(state: IngestState)
    | Stopped(state: IngestState, symbol: string, url: string)
    | Failed(state: IngestState, symbol: string, index: nat, page: Page, error: IngestError)

  /** Download every symbol of `symbols` over `range`. The server is a
      function of the request URL and the attempt index (`None` when that
      attempt raises); `maxRounds` bounds the number of rounds. The loop goes
      on exactly while some symbol is still being fetched. `log` holds the
      whole rounds, which take the initial state to `reached`; `last` is the
      partial round a stop or a raise ended, empty otherwise. */
  method Download(symbols: set<string>, range: DateRange, apiKey: string,
                  server: (string, nat) -> Option<Page>, maxRounds: nat)
    returns (outcome: Outcome, log: seq<RoundLog>, reached: IngestState, last: RoundLog)
    ensures Runs(IngestState(symbols, map[], map[]), log, range, apiKey, server, reached)
    ensures Served(reached, range, apiKey, server, last.syms, last.ks, last.pages)
    ensures Round(reached, last.pages, apiKey) == Ok(outcome.state)
    ensures Wf(outcome.state, symbols, apiKey)
    ensures outcome.Completed? ==> outcome.state.live == {} && last.pages == []
    ensures outcome.OutOfRounds? ==> outcome.state.live != {} && |log| == maxRounds && last.pages == []
    ensures outcome.Stopped? ==>
      && outcome.symbol in reached.live && outcome.symbol !in last.syms
      && outcome.url == RequestUrl(reached, outcome.symbol, range, apiKey)
      && AllAttemptsFail(server, outcome.url)
    ensures outcome.Failed? ==>
      && outcome.symbol in reached.live && outcome.symbol !in last.syms
      && FirstAnswer(server, RequestUrl(reached, outcome.symbol, range, apiKey), outcome.index, outcome.page)
      && HandlePage(outcome.state, outcome.page, apiKey) == Err(outcome.error)
  {
    var st := IngestState(symbols, map[], map[]);
    log, last := [], RoundLog([], [], []);
    while st.live != {}
      invariant Wf(st, symbols, apiKey)
      invariant Runs(IngestState(symbols, map[], map[]), log, range, apiKey, server, st)
      invariant |log| <= maxRounds
      decreases maxRounds - |log|
    {
      if |log| >= maxRounds {
        return OutOfRounds(st), log, st, last;
      }
      var res, pages, syms, ks := RunRound(st, range, apiKey, server);
      RoundWf(st, pages, symbols, apiKey);
      match res
      case RoundStopped(state, s, url) =>
        return Stopped(state, s, url), log, st, RoundLog(syms, ks, pages);
      case RoundFailed(state, s, index, page, error) =>
        return Failed(state, s, index, page, error), log, st, RoundLog(syms, ks, pages);
      case RoundDone(state) =>
        assert WholeRound(st, RoundLog(syms, ks, pages), range, apiKey, server);
        RunsSnoc(IngestState(symbols, map[], map[]), log, range, apiKey, server, st, RoundLog(syms, ks, pages));
        log := log + [RoundLog(syms, ks, pages)];
        st := state;
    }
    return Completed(st), log, st, last;
  }
}

=== FILE: page_store.dfy ===
/** Writing one page of minute aggregates into a symbol's directory: the page
    is cut into consecutive chunks of at most `ChunkSize` rows, and every chunk
    is written under the file named after the page's first time stamp. */
module PageStore {
  import opened Common

  /** Rows per written chunk. */
  const ChunkSize: nat := 25_000

  /** One minute aggregate as returned by the server (`t`, `o`, `h`, `l`, `c`, `v`). */
  datatype Agg = Agg(time: int, open: int, high: int, low: int, close: int, volume: int)

  /** A symbol's directory: file name (a time stamp) to the rows stored in it. */
  type Dir = map<int, seq<Agg>>

  /** The consecutive slices `rows[i..i + ChunkSize]` for `i = 0, ChunkSize,
      2 * ChunkSize, ...`: there are `ceil(n / ChunkSize)` of them, none is
      empty or longer than `ChunkSize`, all but the last are full, and in
      order they cover the rows exactly. */
  function Chunks(rows: seq<Agg>): (cs: seq<seq<Agg>>)
    ensures |cs| == (|rows| + ChunkSize - 1) / ChunkSize
    ensures Flatten(cs) == rows
    ensures forall i :: 0 <= i < |cs| ==> 0 < |cs[i]| <= ChunkSize
    ensures forall i :: 0 <= i < |cs| - 1 ==> |cs[i]| == ChunkSize
    decreases |rows|
  {
    if rows == [] then []
    else if |rows| <= ChunkSize then
      FlattenCons(rows, []);
      [rows]
    else
      var rest := Chunks(rows[ChunkSize..]);
      FlattenCons(rows[..ChunkSize], rest);
      assert rows == rows[..ChunkSize] + rows[ChunkSize..];
      [rows[..ChunkSize]] + rest
  }

  /** The chunk loop as written: each chunk is stored under the same key, so
      each write replaces the previous one. */
  function WriteChunks(dir: Dir, key: int, chunks: seq<seq<Agg>>): (d: Dir)
    ensures chunks == [] ==> d == dir
    ensures chunks != [] ==> d == dir[key := chunks[|chunks| - 1]]
    decreases |chunks|
  {
    if chunks == [] then dir else WriteChunks(dir[key := chunks[0]], key, chunks[1..])
  }

  /** Store one page of rows. The file is named after the page's first time
      stamp, whatever chunk is being written, so that file ends up holding the
      page's last chunk and no other file changes. */
  function WritePage(dir: Dir, rows: seq<Agg>): (d: Dir)
    ensures rows == [] ==> d == dir
    ensures rows != [] ==> d.Keys == dir.Keys + {rows[0].time}
    ensures rows != [] ==> forall k :: k in dir && k != rows[0].time ==> d[k] == dir[k]
    ensures rows != [] ==> d[rows[0].time] == Chunks(rows)[|Chunks(rows)| - 1]
  {
    if rows == [] then dir else WriteChunks(dir, rows[0].time, Chunks(rows))
  }

  /** The first index of the last chunk of `n > 0` rows. */
  function LastChunkStart(n: nat): nat
    requires n > 0
  {
    ((n - 1) / ChunkSize) * ChunkSize
  }

  lemma {:induction false} LastChunkIsTail(rows: seq<Agg>)
    requires rows != []
    ensures LastChunkStart(|rows|) <= |rows|
    ensures Chunks(rows)[|Chunks(rows)| - 1] == rows[LastChunkStart(|rows|)..]
    decreases |rows|
  {
    if |rows| > ChunkSize {
      var rest := rows[ChunkSize..];
      LastChunkIsTail(rest);
      assert (|rows| - 1) / ChunkSize == 1 + (|rest| - 1) / ChunkSize;
      assert rest[LastChunkStart(|rest|)..] == rows[LastChunkStart(|rows|)..];
    }
  }

  /** What a page write leaves behind: every other file is untouched, and the
      file named after the first time stamp holds only the page's last chunk,
      the rows from `LastChunkStart` on. */
  lemma WritePageKeepsLastChunk(dir: Dir, rows: seq<Agg>)
    requires rows != []
    ensures LastChunkStart(|rows|) <= |rows|
    ensures WritePage(dir, rows) == dir[rows[0].time := rows[LastChunkStart(|rows|)..]]
  {
    LastChunkIsTail(rows);
  }

  /** A page of at most `ChunkSize` rows is stored whole. */
  lemma SmallPageStoredWhole(dir: Dir, rows: seq<Agg>)
    requires 0 < |rows| <= ChunkSize
    ensures WritePage(dir, rows) == dir[rows[0].time := rows]
  {
    WritePageKeepsLastChunk(dir, rows);
  }

  /** A page of more than `ChunkSize` rows loses at least its first
      `ChunkSize` rows: the stored file holds no more than the remainder, and
      the page's first row is not what the file starts with unless it repeats. */
  lemma LargePageLosesRows(dir: Dir, rows: seq<Agg>)
    requires |rows| > ChunkSize
    ensures |WritePage(dir, rows)[rows[0].time]| <= |rows| - ChunkSize
    ensures WritePage(dir, rows)[rows[0].time] != rows
  {
    WritePageKeepsLastChunk(dir, rows);
    assert LastChunkStart(|rows|) >= ChunkSize;
  }
}

=== FILE: pagination.dfy ===
/** The bookkeeping of the minute-aggregates download (`download_symbols_aggs`):
    the set of symbols still being fetched, the cursor URL of each symbol, and
    the files written, driven by the pages the server returns. */
module Pagination {
  import opened Common
  import opened PageStore

  /** One page of a symbol's minute aggregates: the ticker it is for, the
      advertised result count, the rows, and the cursor to the next page when
      there is one. */
  datatype Page = Page(ticker: string, resultsCount: int, results: seq<Agg>, nextUrl: Option<string>)

  /** How handling a page raises: removing a symbol that is no longer being
      fetched (`list.remove`), or a non-zero count with no result rows (the
      column selection of an empty frame). */
  datatype IngestError = NotLive(ticker: string) | NoResults(ticker: string)

  /** The symbols still being fetched, the cursor URL per symbol, and each
      symbol's directory of written files. */
  datatype IngestState = IngestState(live: set<string>, cursors: map<string, string>, files: map<string, Dir>)

  /** The fixed query parameters of every minute-aggregates request. */
  function Params(apiKey: string): string
  {
    "adjusted=false&sort=asc&limit=50000&apiKey=" + apiKey
  }

  /** The path of the first request for a symbol over a date range. */
  function InitialPath(symbol: string, range: DateRange): string
  {
    "https://api.polygon.io/v2/aggs/ticker/" + symbol + "/range/1/minute/" + IsoDate(range.start) + "/" + IsoDate(range.end)
  }

  /** The range path holds no `?` when the symbol holds none. */
  lemma InitialPathNoQuery(symbol: string, range: DateRange)
    requires '?' !in symbol
    ensures '?' !in InitialPath(symbol, range)
  {
    var a, b := IsoDate(range.start), IsoDate(range.end);
    assert InitialPath(symbol, range) == "https://api.polygon.io/v2/aggs/ticker/" + symbol + "/range/1/minute/" + a + "/" + b;
    assert '?' !in "https://api.polygon.io/v2/aggs/ticker/";
    assert '?' !in "/range/1/minute/";
  }

  /** The first request of a symbol over a date range: its query is exactly
      the fixed parameters, and when the symbol holds no `?` its text before
      the first `?` is the symbol's range path. */
  function InitialUrl(symbol: string, range: DateRange, apiKey: string): (u: string)
    ensures |u| > |InitialPath(symbol, range)| && u[|InitialPath(symbol, range)| + 1..] == Params(apiKey)
    ensures '?' !in symbol ==> PrefixBefore(u, '?') == InitialPath(symbol, range)
  {
    var path := InitialPath(symbol, range);
    var u := path + ['?'] + Params(apiKey);
    assert u[|path| + 1..] == Params(apiKey);
    if '?' in symbol then u
    else
      InitialPathNoQuery(symbol, range);
      PrefixBeforeSeparator(path, '?', Params(apiKey));
      u
  }

  /** A cursor as stored: it keeps the text of the server's URL before its
      first `?`, and its query is exactly the fixed parameters. */
  function Rewrite(url: string, apiKey: string): (r: string)
    ensures PrefixBefore(r, '?') == PrefixBefore(url, '?')
    ensures |r| > |PrefixBefore(url, '?')| && r[|PrefixBefore(url, '?')| + 1..] == Params(apiKey)
  {
    var path := PrefixBefore(url, '?');
    PrefixBeforeSeparator(path, '?', Params(apiKey));
    var r := path + ['?'] + Params(apiKey);
    assert r[|path| + 1..] == Params(apiKey);
    r
  }

  /** A URL already in stored form. */
  predicate IsRewritten(url: string, apiKey: string)
  {
    Rewrite(url, apiKey) == url
  }

  /** Rewriting a stored cursor changes nothing. */
  lemma RewriteIdempotent(url: string, apiKey: string)
    ensures IsRewritten(Rewrite(url, apiKey), apiKey)
  {
    var r := Rewrite(url, apiKey);
    assert PrefixBefore(r, '?') == PrefixBefore(url, '?');
  }

  /** The first request of a symbol without `?` in its name is already in
      stored form. */
  lemma InitialUrlIsRewritten(symbol: string, range: DateRange, apiKey: string)
    requires '?' !in symbol
    ensures IsRewritten(InitialUrl(symbol, range, apiKey), apiKey)
  {
    var u := InitialUrl(symbol, range, apiKey);
    assert PrefixBefore(u, '?') == InitialPath(symbol, range);
  }

  /** The URL a symbol is requested with: its stored cursor, else the first
      request over the range. For a symbol without `?`, it is in stored form
      whenever the symbol's stored cursor is. */
  function RequestUrl(st: IngestState, symbol: string, range: DateRange, apiKey: string): (u: string)
    ensures '?' !in symbol && (symbol in st.cursors ==> IsRewritten(st.cursors[symbol], apiKey))
         ==> IsRewritten(u, apiKey)
  {
    if symbol in st.cursors then st.cursors[symbol] else InitialUrl(symbol, range, apiKey)
  }

  /** What the loop keeps true: only symbols of the universe are being
      fetched, and every stored cursor is in stored form. */
  predicate Wf(st: IngestState, universe: set<string>, apiKey: string)
  {
    && st.live <= universe
    && forall s :: s in st.cursors ==> IsRewritten(st.cursors[s], apiKey)
  }

  /** Every request of a well-formed state carries the fixed parameters. */
  lemma RequestsRewritten(st: IngestState, universe: set<string>, range: DateRange, apiKey: string)
    requires Wf(st, universe, apiKey)
    requires forall s :: s in universe ==> '?' !in s
    ensures forall s :: s in st.live ==> IsRewritten(RequestUrl(st, s, range, apiKey), apiKey)
  {
    forall s | s in st.live ensures IsRewritten(RequestUrl(st, s, range, apiKey), apiKey) {
      if s !in st.cursors {
        InitialUrlIsRewritten(s, range, apiKey);
      }
    }
  }

  /** A page ends its symbol's download: it has no results, or no next page. */
  predicate Finishes(p: Page)
  {
    p.resultsCount == 0 || p.nextUrl.None?
  }

  /** A page that leads on to a next page. */
  predicate Advances(p: Page)
  {
    p.resultsCount != 0 && p.nextUrl.Some?
  }

  /** A page that raises whatever the state: a non-zero count with no rows. */
  predicate Malformed(p: Page)
  {
    p.resultsCount != 0 && p.results == []
  }

  /** Handle one completed page. A zero count drops the symbol; otherwise the
      rows are written to the symbol's directory, and then either the cursor
      moves to the rewritten next URL or the symbol is dropped. */
  function HandlePage(st: IngestState, p: Page, apiKey: string): (r: Result<IngestState, IngestError>)
    ensures r.Err? <==> Malformed(p) || (Finishes(p) && p.ticker !in st.live)
    ensures r.Ok? ==> r.value.live == if Finishes(p) then st.live - {p.ticker} else st.live
    ensures r.Ok? && p.resultsCount == 0 ==> r.value.cursors == st.cursors && r.value.files == st.files
    ensures r.Ok? && Advances(p) ==> r.value.cursors == st.cursors[p.ticker := Rewrite(p.nextUrl.value, apiKey)]
    ensures r.Ok? && !Advances(p) ==> r.value.cursors == st.cursors
    ensures r.Ok? && p.resultsCount != 0 ==>
      r.value.files == st.files[p.ticker := WritePage(GetOr(st.files, p.ticker, map[]), p.results)]
  {
    if p.resultsCount == 0 then
      if p.ticker in st.live then Ok(st.(live := st.live - {p.ticker})) else Err(NotLive(p.ticker))
    else if p.results == [] then Err(NoResults(p.ticker))
    else
      var stored := st.(files := st.files[p.ticker := WritePage(GetOr(st.files, p.ticker, map[]), p.results)]);
      match p.nextUrl
      case Some(url) => Ok(stored.(cursors := st.cursors[p.ticker := Rewrite(url, apiKey)]))
      case None =>
        if p.ticker in st.live then Ok(stored.(live := st.live - {p.ticker})) else Err(NotLive(p.ticker))
  }

  /** Handling a page keeps the loop's invariant, and never adds a symbol back. */
  lemma HandlePageWf(st: IngestState, p: Page, universe: set<string>, apiKey: string)
    requires Wf(st, universe, apiKey)
    ensures HandlePage(st, p, apiKey).Ok? ==> Wf(HandlePage(st, p, apiKey).value, universe, apiKey)
    ensures HandlePage(st, p, apiKey).Ok? ==> HandlePage(st, p, apiKey).value.live <= st.live
  {
    if Advances(p) {
      RewriteIdempotent(p.nextUrl.value, apiKey);
    }
  }

  /** Handle the pages of one round in completion order; the first raising
      page ends the round. */
  function Round(st: IngestState, pages: seq<Page>, apiKey: string): (r: Result<IngestState, IngestError>)
    ensures r.Ok? ==> r.value.live <= st.live
    decreases |pages|
  {
    if pages == [] then Ok(st)
    else
      match HandlePage(st, pages[0], apiKey)
      case Err(e) => Err(e)
      case Ok(next) => Round(next, pages[1..], apiKey)
  }

  /** A symbol stops being fetched during a round only because one of the
      round's pages for it finished it. */
  lemma {:induction false} RoundDropsOnlyFinished(st: IngestState, pages: seq<Page>, apiKey: string, s: string)
    requires Round(st, pages, apiKey).Ok?
    requires s in st.live && s !in Round(st, pages, apiKey).value.live
    ensures exists i :: 0 <= i < |pages| && pages[i].ticker == s && Finishes(pages[i])
    decreases |pages|
  {
    var next := HandlePage(st, pages[0], apiKey).value;
    if s in next.live {
      RoundDropsOnlyFinished(next, pages[1..], apiKey, s);
      var i :| 0 <= i < |pages[1..]| && pages[1..][i].ticker == s && Finishes(pages[1..][i]);
      assert pages[i + 1] == pages[1..][i];
    } else {
      assert pages[0].ticker == s && Finishes(pages[0]);
    }
  }

  /** A round keeps the loop's invariant. */
  lemma {:induction false} RoundWf(st: IngestState, pages: seq<Page>, universe: set<string>, apiKey: string)
    requires Wf(st, universe, apiKey)
    ensures Round(st, pages, apiKey).Ok? ==> Wf(Round(st, pages, apiKey).value, universe, apiKey)
    decreases |pages|
  {
    if pages != [] {
      HandlePageWf(st, pages[0], universe, apiKey);
      if HandlePage(st, pages[0], apiKey).Ok? {
        RoundWf(HandlePage(st, pages[0], apiKey).value, pages[1..], universe, apiKey);
      }
    }
  }

  /** Handling one more page extends a round. */
  lemma {:induction false} RoundSnoc(st: IngestState, pages: seq<Page>, p: Page, apiKey: string)
    requires Round(st, pages, apiKey).Ok?
    ensures Round(st, pages + [p], apiKey) == HandlePage(Round(st, pages, apiKey).value, p, apiKey)
    decreases |pages|
  {
    if pages == [] {
      assert pages + [p] == [p];
    } else {
      var next := HandlePage(st, pages[0], apiKey).value;
      assert (pages + [p])[0] == pages[0] && (pages + [p])[1..] == pages[1..] + [p];
      RoundSnoc(next, pages[1..], p, apiKey);
    }
  }

  /** Everything the state records about one symbol. */
  datatype SymbolView = SymbolView(live: bool, cursor: Option<string>, dir: Option<Dir>)

  function View(st: IngestState, s: string): SymbolView
  {
    SymbolView(s in st.live, Lookup(st.cursors, s), Lookup(st.files, s))
  }

  /** States that agree on every symbol are equal. */
  lemma StateExt(a: IngestState, b: IngestState)
    requires forall s :: View(a, s) == View(b, s)
    ensures a == b
  {
    assert a.live == b.live by {
      forall s ensures s in a.live <==> s in b.live {
        assert View(a, s).live == View(b, s).live;
      }
    }
    assert a.cursors == b.cursors by {
      forall s ensures (s in a.cursors <==> s in b.cursors) && (s in a.cursors ==> a.cursors[s] == b.cursors[s]) {
        assert View(a, s).cursor == View(b, s).cursor;
      }
    }
    assert a.files == b.files by {
      forall s ensures (s in a.files <==> s in b.files) && (s in a.files ==> a.files[s] == b.files[s]) {
        assert View(a, s).dir == View(b, s).dir;
      }
    }
  }

  /** A page touches only its own symbol. */
  lemma HandlePageFrame(st: IngestState, p: Page, apiKey: string, s: string)
    requires HandlePage(st, p, apiKey).Ok? && s != p.ticker
    ensures View(HandlePage(st, p, apiKey).value, s) == View(st, s)
  {
    var r := HandlePage(st, p, apiKey).value;
    assert (s in r.live) == (s in st.live);
    assert Lookup(r.cursors, s) == Lookup(st.cursors, s);
    assert Lookup(r.files, s) == Lookup(st.files, s);
  }

  /** What a page does depends only on what the state records about its own
      symbol. */
  lemma HandlePageLocal(st1: IngestState, st2: IngestState, p: Page, apiKey: string)
    requires View(st1, p.ticker) == View(st2, p.ticker)
    ensures HandlePage(st1, p, apiKey).Ok? == HandlePage(st2, p, apiKey).Ok?
    ensures HandlePage(st1, p, apiKey).Ok? ==>
      View(HandlePage(st1, p, apiKey).value, p.ticker) == View(HandlePage(st2, p, apiKey).value, p.ticker)
  {
    var t := p.ticker;
    assert (t in st1.live) == (t in st2.live) by {
      assert View(st1, t).live == View(st2, t).live;
    }
    assert GetOr(st1.files, t, map[]) == GetOr(st2.files, t, map[]) by {
      assert Lookup(st1.files, t) == Lookup(st2.files, t);
    }
    if HandlePage(st1, p, apiKey).Ok? {
      var r1, r2 := HandlePage(st1, p, apiKey).value, HandlePage(st2, p, apiKey).value;
      assert (t in r1.live) == (t in r2.live);
      assert Lookup(r1.cursors, t) == Lookup(r2.cursors, t) by {
        assert Lookup(st1.cursors, t) == Lookup(st2.cursors, t);
      }
      assert Lookup(r1.files, t) == Lookup(r2.files, t) by {
        assert Lookup(st1.files, t) == Lookup(st2.files, t);
      }
    }
  }

  /** The tickers of the pages are pairwise different. */
  predicate Distinct(pages: seq<Page>)
  {
    forall i, j :: 0 <= i < j < |pages| ==> pages[i].ticker != pages[j].ticker
  }

  /** The first page for a symbol, if any. */
  function PageFor(pages: seq<Page>, s: string): (r: Option<Page>)
    ensures r.None? <==> forall i :: 0 <= i < |pages| ==> pages[i].ticker != s
    ensures r.Some? ==> r.value.ticker == s && r.value in pages
  {
    if pages == [] then None
    else if pages[0].ticker == s then Some(pages[0])
    else
      var r := PageFor(pages[1..], s);
      assert forall i :: 1 <= i < |pages| ==> pages[i] == pages[1..][i - 1];
      r
  }

  lemma {:induction false} PageForUnique(pages: seq<Page>, i: int)
    requires Distinct(pages) && 0 <= i < |pages|
    ensures PageFor(pages, pages[i].ticker) == Some(pages[i])
    decreases |pages|
  {
    if i > 0 {
      assert pages[0].ticker != pages[i].ticker;
      assert pages[1..][i - 1] == pages[i];
      PageForUnique(pages[1..], i - 1);
    }
  }

  /** Where each symbol ends up after handling every page of `pages` against
      the same state: its page's effect when it has one, its old record
      otherwise. */
  function Expected(st: IngestState, pages: seq<Page>, apiKey: string, s: string): SymbolView
  {
    match PageFor(pages, s)
    case None => View(st, s)
    case Some(p) => if HandlePage(st, p, apiKey).Ok? then View(HandlePage(st, p, apiKey).value, s) else View(st, s)
  }

  /** A round over pages of different symbols succeeds exactly when each
      page would succeed on its own against the round's starting state, and
      then each symbol ends up as its own page alone would leave it. */
  lemma {:induction false} RoundPerSymbol(st: IngestState, pages: seq<Page>, apiKey: string)
    requires Distinct(pages)
    ensures Round(st, pages, apiKey).Ok? <==> forall i :: 0 <= i < |pages| ==> HandlePage(st, pages[i], apiKey).Ok?
    ensures Round(st, pages, apiKey).Ok? ==> forall s :: View(Round(st, pages, apiKey).value, s) == Expected(st, pages, apiKey, s)
    decreases |pages|
  {
    if pages != [] {
      var p := pages[0];
      var rest := pages[1..];
      assert Distinct(rest);
      assert forall i :: 0 <= i < |rest| ==> rest[i] == pages[i + 1];
      assert pages == [p] + rest;
      var first := HandlePage(st, p, apiKey);
      if first.Ok? {
        var next := first.value;
        RoundPerSymbol(next, rest, apiKey);
        forall i | 0 <= i < |rest|
          ensures HandlePage(next, rest[i], apiKey).Ok? == HandlePage(st, rest[i], apiKey).Ok?
        {
          OtherPageUnaffected(st, p, rest[i], apiKey);
        }
        if Round(st, pages, apiKey).Ok? {
          forall s ensures View(Round(st, pages, apiKey).value, s) == Expected(st, pages, apiKey, s) {
            ExpectedStep(st, p, rest, apiKey, s);
          }
        }
      }
    }
  }

  /** Handling a page leaves what another symbol's page does unchanged. */
  lemma OtherPageUnaffected(st: IngestState, p: Page, q: Page, apiKey: string)
    requires HandlePage(st, p, apiKey).Ok? && q.ticker != p.ticker
    ensures HandlePage(HandlePage(st, p, apiKey).value, q, apiKey).Ok? == HandlePage(st, q, apiKey).Ok?
    ensures HandlePage(st, q, apiKey).Ok? ==>
      View(HandlePage(HandlePage(st, p, apiKey).value, q, apiKey).value, q.ticker) == View(HandlePage(st, q, apiKey).value, q.ticker)
  {
    var next := HandlePage(st, p, apiKey).value;
    HandlePageFrame(st, p, apiKey, q.ticker);
    HandlePageLocal(next, st, q, apiKey);
  }

  /** What each symbol is expected to become is the same whether the first
      page is handled before or together with the rest. */
  lemma ExpectedStep(st: IngestState, p: Page, rest: seq<Page>, apiKey: string, s: string)
    requires HandlePage(st, p, apiKey).Ok?
    requires forall i :: 0 <= i < |rest| ==> rest[i].ticker != p.ticker
    ensures Expected(HandlePage(st, p, apiKey).value, rest, apiKey, s) == Expected(st, [p] + rest, apiKey, s)
  {
    var next := HandlePage(st, p, apiKey).value;
    var pages := [p] + rest;
    assert pages[0] == p && pages[1..] == rest;
    if s != p.ticker {
      HandlePageFrame(st, p, apiKey, s);
      match PageFor(rest, s)
      case None =>
      case Some(q) =>
        OtherPageUnaffected(st, p, q, apiKey);
    }
  }

  /** Two orders of the same distinct pages find the same page for every symbol. */
  lemma SamePageFor(pages: seq<Page>, other: seq<Page>, s: string)
    requires Distinct(pages) && Distinct(other)
    requires forall q :: q in pages <==> q in other
    ensures PageFor(pages, s) == PageFor(other, s)
  {
    if PageFor(pages, s).Some? {
      var i :| 0 <= i < |other| && other[i] == PageFor(pages, s).value;
      PageForUnique(other, i);
    } else {
      forall i | 0 <= i < |other| ensures other[i].ticker != s {
        assert other[i] in pages;
      }
    }
  }

  lemma AllHandled(st: IngestState, pages: seq<Page>, other: seq<Page>, apiKey: string)
    requires forall q :: q in pages <==> q in other
    requires forall i :: 0 <= i < |pages| ==> HandlePage(st, pages[i], apiKey).Ok?
    ensures forall i :: 0 <= i < |other| ==> HandlePage(st, other[i], apiKey).Ok?
  {
    forall i | 0 <= i < |other| ensures HandlePage(st, other[i], apiKey).Ok? {
      assert other[i] in pages;
      var j :| 0 <= j < |pages| && pages[j] == other[i];
    }
  }

  /** The order in which the pages of a round complete does not matter: any
      two orders of the same pages of different symbols both succeed or both
      raise, and when they succeed they reach the same state. */
  lemma RoundOrderIrrelevant(st: IngestState, pages: seq<Page>, other: seq<Page>, apiKey: string)
    requires Distinct(pages) && Distinct(other)
    requires multiset(pages) == multiset(other)
    ensures Round(st, pages, apiKey).Ok? <==> Round(st, other, apiKey).Ok?
    ensures Round(st, pages, apiKey).Ok? ==> Round(st, pages, apiKey) == Round(st, other, apiKey)
  {
    assert forall q :: q in pages <==> q in other by {
      forall q ensures q in pages <==> q in other {
        assert q in pages <==> q in multiset(pages);
        assert q in other <==> q in multiset(other);
      }
    }
    RoundPerSymbol(st, pages, apiKey);
    RoundPerSymbol(st, other, apiKey);
    if Round(st, pages, apiKey).Ok? {
      AllHandled(st, pages, other, apiKey);
      var a, b := Round(st, pages, apiKey).value, Round(st, other, apiKey).value;
      forall s ensures View(a, s) == View(b, s) {
        SamePageFor(pages, other, s);
      }
      StateExt(a, b);
    } else if Round(st, other, apiKey).Ok? {
      AllHandled(st, other, pages, apiKey);
    }
  }
}

=== FILE: retry.dfy ===
/** The retry policy of a minute-aggregates request (`__fetch_minute_aggs`):
    a failed attempt with index below the limit sleeps the square of its index
    and tries again; a failure at the limit stops the whole run. */
module Retry {
  import opened Common

  /** The attempt index at which a failure stops the run instead of retrying. */
  const MaxRetries: nat := 10

  /** How a request ends: with the value of the first successful attempt, its
      index and the sleeps taken before it; or fatally, after the sleeps taken
      before the last failure (the run is stopped there). */
  datatype Fetch<T> = Fetched(value: T, index: nat, delays: seq<nat>) | Fatal(delays: seq<nat>)

  function Last(tries: nat): nat
  {
    if tries <= MaxRetries then MaxRetries else tries
  }

  /** Requesting from attempt index `tries` on, where `attempt(k)` is what the
      `k`-th attempt gets (`None` when it raises). Failures up to the limit
      sleep `k * k` each; success returns at once. */
  function Retry<T>(attempt: nat -> Option<T>, tries: nat): (r: Fetch<T>)
    ensures r.Fatal? <==> forall k :: tries <= k <= Last(tries) ==> attempt(k).None?
    ensures r.Fetched? ==> tries <= r.index <= Last(tries) && attempt(r.index) == Some(r.value)
    ensures r.Fetched? ==> forall k :: tries <= k < r.index ==> attempt(k).None?
    ensures r.Fetched? ==> |r.delays| == r.index - tries
    ensures r.Fatal? ==> |r.delays| == Last(tries) - tries
    ensures forall i :: 0 <= i < |r.delays| ==> r.delays[i] == (tries + i) * (tries + i)
    decreases Last(tries) - tries
  {
    match attempt(tries)
    case Some(v) => Fetched(v, tries, [])
    case None =>
      if tries >= MaxRetries then Fatal([])
      else
        match Retry(attempt, tries + 1)
        case Fetched(v, index, delays) => Fetched(v, index, [tries * tries] + delays)
        case Fatal(delays) => Fatal([tries * tries] + delays)
  }

  /** A request as the ingestion loop issues it: attempts 0 to 10, so at most
      eleven attempts, sleeping 0, 1, 4, ..., 81 seconds between them. */
  function FetchWithRetry<T>(attempt: nat -> Option<T>): (r: Fetch<T>)
    ensures r.Fatal? <==> forall k :: 0 <= k <= MaxRetries ==> attempt(k).None?
    ensures r.Fetched? ==> r.index <= MaxRetries && attempt(r.index) == Some(r.value)
    ensures r.Fetched? ==> forall k :: 0 <= k < r.index ==> attempt(k).None?
    ensures |r.delays| <= MaxRetries
    ensures forall i :: 0 <= i < |r.delays| ==> r.delays[i] == i * i
  {
    Retry(attempt, 0)
  }

  /** When every attempt fails the run stops after exactly these ten sleeps. */
  lemma AllFailSchedule<T>(attempt: nat -> Option<T>)
    requires forall k :: attempt(k).None?
    ensures FetchWithRetry(attempt) == Fatal([0, 1, 4, 9, 16, 25, 36, 49, 64, 81])
  {
    var r := FetchWithRetry(attempt);
    assert r.Fatal?;
    assert |r.delays| == 10;
    assert forall i :: 0 <= i < 10 ==> r.delays[i] == i * i;
  }

  /** A request that first succeeds at attempt `k` has slept `k` times. */
  lemma SuccessAfterFailures<T>(attempt: nat -> Option<T>, k: nat, v: T)
    requires k <= MaxRetries && attempt(k) == Some(v)
    requires forall j :: 0 <= j < k ==> attempt(j).None?
    ensures FetchWithRetry(attempt).Fetched?
    ensures FetchWithRetry(attempt).value == v && FetchWithRetry(attempt).index == k
    ensures |FetchWithRetry(attempt).delays| == k
  {
    var r := FetchWithRetry(attempt);
    assert r.Fetched? by {
      assert !attempt(k).None?;
    }
    assert r.index <= k by {
      assert !attempt(k).None?;
    }
    assert r.index >= k by {
      assert attempt(r.index).Some?;
    }
  }
}

=== FILE: snapshots.dfy ===
/** Building the per-day snapshot tables: the partition-year filter, the
    per-symbol and per-shard reductions, the per-day tables, and the merge of
    shard results (`make_market_snapshots` and the script's merge loop). */
module Snapshots {
  import opened Common
  import opened DayAggregation
  import EvenSplit

  /** The number of shards the symbol universe is split into. */
  const ShardCount: int := 6

  /** One stored partition of a symbol's bars: its file name and its bars in
      stored order. */
  datatype PartitionFile = PartitionFile(name: string, bars: seq<Bar>)

  /** The ways compiling the tables fails: no directory for a symbol, a file
      name whose part before the first `.` is not a number, an empty
      partition (whose first bar the reduction reads), or a call of the shard
      worker that leaves out one of its parameters (Python's `TypeError`). */
  datatype LoadError =
    | MissingSymbol(symbol: string)
    | BadPartitionName(symbol: string, name: string)
    | EmptyPartition(symbol: string, name: string)
    | MissingArgument(parameter: string)

  /** Each symbol's partition files, in directory-listing order. */
  type Store = map<string, seq<PartitionFile>>

  /** Per-day tables of rows. */
  type Snapshot = map<Date, seq<Row>>

  /** The year a partition file stands for: its name before the first `.`,
      read as a number. There is one exactly when that text is a non-empty
      run of digits. */
  function PartitionYear(name: string): (y: Option<nat>)
    ensures y.Some? <==> |PrefixBefore(name, '.')| > 0 && AllDigits(PrefixBefore(name, '.'))
  {
    ParseNat(PrefixBefore(name, '.'))
  }

  /** A file named after a year and an extension is read as that year. */
  lemma PartitionYearOfYearFile(year: nat, extension: string)
    ensures PartitionYear(Decimal(year) + "." + extension) == Some(year)
  {
    assert '.' !in Decimal(year) by {
      assert !IsDigit('.');
    }
    PrefixBeforeSeparator(Decimal(year), '.', extension);
    assert Decimal(year) + "." + extension == Decimal(year) + ['.'] + extension;
    ParseDecimal(year);
  }

  predicate YearSelected(range: DateRange, year: int)
  {
    range.start.year <= year <= range.end.year
  }

  /** Every row is valid, lies in the range, and belongs to one of `symbols`. */
  predicate RowsOk(range: DateRange, symbols: set<string>, rows: seq<DayRow>)
  {
    forall k :: 0 <= k < |rows| ==>
      ValidRow(rows[k].row) && Within(range, rows[k].day) && rows[k].row.symbol in symbols
  }

  /** The symbols listed in `symbols`. */
  function Members(symbols: seq<string>): set<string>
  {
    set s | s in symbols
  }

  /** The first error of two, else both row sequences joined in order. */
  function Concat(a: Result<seq<DayRow>, LoadError>, b: Result<seq<DayRow>, LoadError>): Result<seq<DayRow>, LoadError>
  {
    if a.Err? then a else if b.Err? then b else Ok(a.value + b.value)
  }

  lemma ConcatAssoc(a: Result<seq<DayRow>, LoadError>, b: Result<seq<DayRow>, LoadError>, c: Result<seq<DayRow>, LoadError>)
    ensures Concat(a, Concat(b, c)) == Concat(Concat(a, b), c)
  {
    if a.Ok? && b.Ok? && c.Ok? {
      assert a.value + (b.value + c.value) == (a.value + b.value) + c.value;
    }
  }

  lemma ConcatRowsOk(range: DateRange, symbols: set<string>, a: Result<seq<DayRow>, LoadError>, b: Result<seq<DayRow>, LoadError>)
    requires a.Ok? ==> RowsOk(range, symbols, a.value)
    requires b.Ok? ==> RowsOk(range, symbols, b.value)
    ensures Concat(a, b).Ok? ==> RowsOk(range, symbols, Concat(a, b).value)
  {
    if a.Ok? && b.Ok? {
      var c := a.value + b.value;
      forall k | 0 <= k < |c|
        ensures ValidRow(c[k].row) && Within(range, c[k].day) && c[k].row.symbol in symbols
      {
        if k < |a.value| { assert c[k] == a.value[k]; } else { assert c[k] == b.value[k - |a.value|]; }
      }
    }
  }

  /** The rows one partition file contributes: none when its year lies
      outside the range's years, its reduction otherwise. */
  function PartitionRows(range: DateRange, symbol: string, file: PartitionFile): (r: Result<seq<DayRow>, LoadError>)
    ensures r.Err? <==> (|| PartitionYear(file.name).None?
                         || (YearSelected(range, PartitionYear(file.name).value) && file.bars == []))
    ensures r.Ok? && r.value != [] ==> YearSelected(range, PartitionYear(file.name).value)
    ensures r.Ok? ==> RowsOk(range, {symbol}, r.value)
  {
    match PartitionYear(file.name)
    case None => Err(BadPartitionName(symbol, file.name))
    case Some(year) =>
      if !YearSelected(range, year) then Ok([])
      else if |file.bars| == 0 then Err(EmptyPartition(symbol, file.name))
      else Ok(ReducePartition(symbol, range, file.bars))
  }

  /** The rows of all of one symbol's partition files, in listing order. */
  function SymbolRows(range: DateRange, symbol: string, files: seq<PartitionFile>): (r: Result<seq<DayRow>, LoadError>)
    ensures r.Ok? ==> RowsOk(range, {symbol}, r.value)
  {
    if files == [] then Ok([])
    else
      var head := PartitionRows(range, symbol, files[0]);
      var tail := SymbolRows(range, symbol, files[1..]);
      ConcatRowsOk(range, {symbol}, head, tail);
      Concat(head, tail)
  }

  function SymbolResult(range: DateRange, symbol: string, store: Store): (r: Result<seq<DayRow>, LoadError>)
    ensures r.Ok? ==> RowsOk(range, {symbol}, r.value)
  {
    if symbol in store then SymbolRows(range, symbol, store[symbol]) else Err(MissingSymbol(symbol))
  }

  lemma RowsOkWiden(range: DateRange, small: set<string>, large: set<string>, r: Result<seq<DayRow>, LoadError>)
    requires r.Ok? ==> RowsOk(range, small, r.value)
    requires small <= large
    ensures r.Ok? ==> RowsOk(range, large, r.value)
  {
  }

  /** The rows of a list of symbols, symbol after symbol; the first failure
      ends the whole reduction. */
  function ShardRows(range: DateRange, symbols: seq<string>, store: Store): (r: Result<seq<DayRow>, LoadError>)
    ensures r.Ok? ==> RowsOk(range, Members(symbols), r.value)
  {
    if symbols == [] then Ok([])
    else
      var all := Members(symbols);
      var head := SymbolResult(range, symbols[0], store);
      var tail := ShardRows(range, symbols[1..], store);
      RowsOkWiden(range, {symbols[0]}, all, head);
      RowsOkWiden(range, Members(symbols[1..]), all, tail);
      ConcatRowsOk(range, all, head, tail);
      Concat(head, tail)
  }

  /** Reducing the concatenation of two symbol lists is reducing each and
      joining the results (first error first). */
  lemma {:induction false} ShardRowsAppend(range: DateRange, a: seq<string>, b: seq<string>, store: Store)
    ensures ShardRows(range, a + b, store) == Concat(ShardRows(range, a, store), ShardRows(range, b, store))
    decreases |a|
  {
    if a == [] {
      assert a + b == b;
      var rb := ShardRows(range, b, store);
      assert rb.Ok? ==> [] + rb.value == rb.value;
    } else {
      assert (a + b)[0] == a[0] && (a + b)[1..] == a[1..] + b;
      ShardRowsAppend(range, a[1..], b, store);
      ConcatAssoc(SymbolResult(range, a[0], store), ShardRows(range, a[1..], store), ShardRows(range, b, store));
    }
  }

  /** The rows of `rows` that fall on day `d`, in order. */
  function RowsOn(rows: seq<DayRow>, d: Date): seq<Row>
  {
    if rows == [] then [] else (if rows[0].day == d then [rows[0].row] else []) + RowsOn(rows[1..], d)
  }

  lemma {:induction false} RowsOnAppend(a: seq<DayRow>, b: seq<DayRow>, d: Date)
    ensures RowsOn(a + b, d) == RowsOn(a, d) + RowsOn(b, d)
    decreases |a|
  {
    if a == [] {
      assert a + b == b;
    } else {
      assert (a + b)[0] == a[0] && (a + b)[1..] == a[1..] + b;
      RowsOnAppend(a[1..], b, d);
    }
  }

  /** Day `d` has rows exactly when some row falls on it, and each of its
      rows comes from a row on that day. */
  lemma {:induction false} RowsOnContents(rows: seq<DayRow>, d: Date)
    ensures RowsOn(rows, d) != [] <==> exists k :: 0 <= k < |rows| && rows[k].day == d
    ensures forall j :: 0 <= j < |RowsOn(rows, d)| ==>
      exists k :: 0 <= k < |rows| && rows[k].day == d && rows[k].row == RowsOn(rows, d)[j]
  {
    if rows != [] {
      RowsOnContents(rows[1..], d);
      assert forall k :: 1 <= k < |rows| ==> rows[k] == rows[1..][k - 1];
      var head := if rows[0].day == d then [rows[0].row] else [];
      forall j | 0 <= j < |RowsOn(rows, d)|
        ensures exists k :: 0 <= k < |rows| && rows[k].day == d && rows[k].row == RowsOn(rows, d)[j]
      {
        if j >= |head| {
          var k :| 0 <= k < |rows[1..]| && rows[1..][k].day == d && rows[1..][k].row == RowsOn(rows[1..], d)[j - |head|];
          assert rows[k + 1] == rows[1..][k];
        }
      }
    }
  }

  /** Two tables are equal when they have the same days and the same rows on each. */
  lemma SnapshotExt(m1: Snapshot, m2: Snapshot)
    requires forall d :: (d in m1 <==> d in m2) && GetOr(m1, d, []) == GetOr(m2, d, [])
    ensures m1 == m2
  {
    assert m1.Keys == m2.Keys;
    forall d | d in m1 ensures m1[d] == m2[d] {
      assert GetOr(m1, d, []) == GetOr(m2, d, []);
    }
  }

  /** Append one row to its day's table, creating the table on first use. */
  function AddRow(m: Snapshot, r: DayRow): Snapshot
  {
    m[r.day := GetOr(m, r.day, []) + [r.row]]
  }

  /** The per-day tables built from a sequence of rows: a day has a table
      exactly when some row falls on it, and the table holds that day's rows
      in order. */
  function Collect(rows: seq<DayRow>): (m: Snapshot)
    ensures forall d :: GetOr(m, d, []) == RowsOn(rows, d)
    ensures forall d :: d in m <==> RowsOn(rows, d) != []
  {
    if rows == [] then map[]
    else
      var init := rows[..|rows| - 1];
      var last := rows[|rows| - 1];
      assert rows == init + [last];
      AddRowTables(Collect(init), init, last);
      AddRow(Collect(init), last)
  }

  /** Adding one row to the tables of `rows` gives the tables of `rows + [last]`. */
  lemma AddRowTables(m: Snapshot, rows: seq<DayRow>, last: DayRow)
    requires forall d :: GetOr(m, d, []) == RowsOn(rows, d)
    requires forall d :: d in m <==> RowsOn(rows, d) != []
    ensures forall d :: GetOr(AddRow(m, last), d, []) == RowsOn(rows + [last], d)
    ensures forall d :: d in AddRow(m, last) <==> RowsOn(rows + [last], d) != []
  {
    forall d
      ensures GetOr(AddRow(m, last), d, []) == RowsOn(rows + [last], d)
      ensures d in AddRow(m, last) <==> RowsOn(rows + [last], d) != []
    {
      RowsOnAppend(rows, [last], d);
      assert RowsOn([last], d) == (if last.day == d then [last.row] else []) + RowsOn([], d);
    }
  }

  /** A day's table is fit to publish: the day lies in the range, the table
      is not empty, and each row is valid and belongs to one of `symbols`. */
  predicate TableOk(range: DateRange, symbols: set<string>, d: Date, table: seq<Row>)
  {
    && Within(range, d)
    && table != []
    && forall j :: 0 <= j < |table| ==> ValidRow(table[j]) && table[j].symbol in symbols
  }

  /** Tables built from acceptable rows are fit to publish. */
  lemma CollectTablesOk(range: DateRange, symbols: set<string>, rows: seq<DayRow>)
    requires RowsOk(range, symbols, rows)
    ensures forall d :: d in Collect(rows) ==> TableOk(range, symbols, d, Collect(rows)[d])
  {
    var m := Collect(rows);
    forall d | d in m ensures TableOk(range, symbols, d, m[d]) {
      assert GetOr(m, d, []) == m[d];
      RowsOnContents(rows, d);
    }
  }

  /** The reduction of a list of symbols as per-day tables. */
  function MakeSnapshots(range: DateRange, symbols: seq<string>, store: Store): (r: Result<Snapshot, LoadError>)
    ensures r.Ok? <==> ShardRows(range, symbols, store).Ok?
    ensures r.Ok? ==> forall d :: d in r.value ==> TableOk(range, Members(symbols), d, r.value[d])
  {
    match ShardRows(range, symbols, store)
    case Err(e) => Err(e)
    case Ok(rows) =>
      CollectTablesOk(range, Members(symbols), rows);
      Ok(Collect(rows))
  }

  /** Merge one shard's tables into the tables gathered so far: day by day,
      the earlier rows followed by the shard's rows. */
  function MergeInto(acc: Snapshot, part: Snapshot): (m: Snapshot)
    ensures m.Keys == acc.Keys + part.Keys
    ensures forall d :: d in m ==> |m[d]| == |GetOr(acc, d, [])| + |GetOr(part, d, [])|
    ensures forall d :: d in acc ==> acc[d] <= m[d]
    ensures forall d :: d in part ==> |part[d]| <= |m[d]| && m[d][|m[d]| - |part[d]|..] == part[d]
  {
    map d | d in acc.Keys + part.Keys :: GetOr(acc, d, []) + GetOr(part, d, [])
  }

  /** Merging the tables of two row sequences gives the tables of their
      concatenation: a day is present when either side has rows on it, and
      its table is the first side's rows followed by the second's. */
  lemma MergeCollect(a: seq<DayRow>, b: seq<DayRow>)
    ensures MergeInto(Collect(a), Collect(b)) == Collect(a + b)
    ensures forall d :: GetOr(MergeInto(Collect(a), Collect(b)), d, []) == RowsOn(a, d) + RowsOn(b, d)
  {
    var merged := MergeInto(Collect(a), Collect(b));
    forall d ensures (d in merged <==> d in Collect(a + b)) && GetOr(merged, d, []) == GetOr(Collect(a + b), d, []) {
      RowsOnAppend(a, b, d);
    }
    SnapshotExt(merged, Collect(a + b));
  }

  /** Reducing the shards up to `i` is reducing those before it and then
      shard `i`; reducing all shards is reducing those up to `i` and then the
      rest. */
  lemma ShardSplit(range: DateRange, shards: seq<seq<string>>, i: int, store: Store)
    requires 0 <= i < |shards|
    ensures ShardRows(range, Flatten(shards[..i + 1]), store)
         == Concat(ShardRows(range, Flatten(shards[..i]), store), ShardRows(range, shards[i], store))
    ensures ShardRows(range, Flatten(shards), store)
         == Concat(ShardRows(range, Flatten(shards[..i + 1]), store), ShardRows(range, Flatten(shards[i + 1..]), store))
  {
    assert shards == shards[..i + 1] + shards[i + 1..];
    FlattenAppend(shards[..i + 1], shards[i + 1..]);
    assert shards[..i + 1] == shards[..i] + [shards[i]];
    FlattenSnoc(shards[..i], shards[i]);
    ShardRowsAppend(range, Flatten(shards[..i + 1]), Flatten(shards[i + 1..]), store);
    ShardRowsAppend(range, Flatten(shards[..i]), shards[i], store);
  }

  /** The shard worker `make_market_snapshots(args, res_dir)` called on one
      shard, with the data directory when `resDir` holds one. Without it the
      call raises for the missing `res_dir` parameter before doing any work. */
  function Worker(range: DateRange, symbols: seq<string>, resDir: Option<Store>): (r: Result<Snapshot, LoadError>)
    ensures resDir.None? ==> r.Err?
    ensures resDir.Some? ==> (r.Ok? <==> ShardRows(range, symbols, resDir.value).Ok?)
    ensures r.Ok? ==> forall d :: d in r.value ==> TableOk(range, Members(symbols), d, r.value[d])
  {
    match resDir
    case None => Err(MissingArgument("res_dir"))
    case Some(store) => MakeSnapshots(range, symbols, store)
  }

  /** The driver's loop over the workers' results in shard order: the first
      result that raised re-raises, and the others are merged into `acc`. */
  function MergeResults(acc: Snapshot, results: seq<Result<Snapshot, LoadError>>): (r: Result<Snapshot, LoadError>)
    ensures r.Ok? <==> forall i :: 0 <= i < |results| ==> results[i].Ok?
    ensures r.Err? ==> exists i :: 0 <= i < |results| && results[i] == r && forall j :: 0 <= j < i ==> results[j].Ok?
    decreases |results|
  {
    if results == [] then Ok(acc)
    else
      match results[0]
      case Err(e) => Err(e)
      case Ok(part) => MergeResults(MergeInto(acc, part), results[1..])
  }

  /** The script's driver as written: `pool.imap` hands each worker a single
      argument, the (start, end, symbols) tuple, and no data directory. There
      are always six shards, even for no symbols, so reading the first result
      re-raises the missing-argument error: whatever the symbols and the
      store, nothing is merged and no table is written. */
  method CompileSnapshotsAsWritten(range: DateRange, symbols: seq<string>, store: Store) returns (r: Result<Snapshot, LoadError>)
    ensures r.Err? && r.error == MissingArgument("res_dir")
  {
    var shards := EvenSplit.EvenlySplit(symbols, ShardCount);
    var results := seq(|shards|, i requires 0 <= i < |shards| => Worker(range, shards[i], None));
    r := MergeResults(map[], results);
  }

  /** The script's driver as intended, each worker given the data directory:
      split the symbols into shards, reduce each shard, and merge the shard
      tables in shard order. Sharding does not change the result: it is the
      reduction of the whole symbol list. */
  method CompileSnapshots(range: DateRange, symbols: seq<string>, store: Store) returns (r: Result<Snapshot, LoadError>)
    ensures r == MakeSnapshots(range, symbols, store)
  {
    var shards := EvenSplit.EvenlySplit(symbols, ShardCount);
    assert Flatten(shards) == symbols;
    var merged: Snapshot := map[];
    var i := 0;
    while i < |shards|
      invariant 0 <= i <= |shards|
      invariant ShardRows(range, Flatten(shards[..i]), store).Ok?
      invariant merged == Collect(ShardRows(range, Flatten(shards[..i]), store).value)
    {
      var done := Flatten(shards[..i]);
      ShardSplit(range, shards, i, store);
      var part := Worker(range, shards[i], Some(store));
      if part.Err? {
        return Err(part.error);
      }
      MergeCollect(ShardRows(range, done, store).value, ShardRows(range, shards[i], store).value);
      merged := MergeInto(merged, part.value);
      i := i + 1;
    }
    assert shards[..|shards|] == shards;
    r := Ok(merged);
  }
}

=== FILE: symbol_universe.dfy ===
/** The symbol universe: the tickers listed in the grouped daily snapshots of
    the market dates, kept only when they are plain upper-case words
    (`get_symbols`). */
module SymbolUniverse {

  /** An ASCII letter; on ASCII text these are also the cased characters. */
  predicate IsLetter(c: char)
  {
    'A' <= c <= 'Z' || 'a' <= c <= 'z'
  }

  /** Python's `str.isalpha` on ASCII text: at least one character, and every
      character a letter. */
  predicate IsAlpha(t: string)
  {
    |t| > 0 && forall i :: 0 <= i < |t| ==> IsLetter(t[i])
  }

  /** Python's `str.isupper` on ASCII text: at least one cased character, and
      every cased character upper-case. */
  predicate IsUpper(t: string)
  {
    && (exists i :: 0 <= i < |t| && IsLetter(t[i]))
    && forall i :: 0 <= i < |t| && IsLetter(t[i]) ==> 'A' <= t[i] <= 'Z'
  }

  /** The ticker filter: a non-empty word of upper-case letters, which is
      exactly what `isalpha() and isupper()` accepts on ASCII text. */
  function IsTicker(t: string): (b: bool)
    ensures b <==> IsAlpha(t) && IsUpper(t)
  {
    if t == [] then false
    else
      assert 'A' <= t[0] <= 'Z' ==> IsLetter(t[0]);
      forall i :: 0 <= i < |t| ==> 'A' <= t[i] <= 'Z'
  }

  /** Every accepted ticker listed on any day, as a set: the universe of
      symbols the snapshots of `days` determine. */
  function Universe(days: seq<seq<string>>): set<string>
  {
    set i, j | 0 <= i < |days| && 0 <= j < |days[i]| && IsTicker(days[i][j]) :: days[i][j]
  }

  /** The collecting loop: day after day (in completion order), ticker after
      ticker, add every accepted ticker to the result. */
  method CollectSymbols(days: seq<seq<string>>) returns (symbols: set<string>)
    ensures symbols == Universe(days)
    ensures forall t :: t in symbols <==> IsTicker(t) && exists i, j :: 0 <= i < |days| && 0 <= j < |days[i]| && days[i][j] == t
  {
    symbols := {};
    var i := 0;
    while i < |days|
      invariant 0 <= i <= |days|
      invariant symbols == Universe(days[..i])
    {
      var day := days[i];
      var j := 0;
      while j < |day|
        invariant 0 <= j <= |day|
        invariant symbols == Universe(days[..i]) + set k | 0 <= k < j && IsTicker(day[k]) :: day[k]
      {
        if IsTicker(day[j]) {
          symbols := symbols + {day[j]};
        }
        j := j + 1;
      }
      UniverseSnoc(days[..i], day);
      assert days[..i + 1] == days[..i] + [day];
      i := i + 1;
    }
    assert days[..i] == days;
  }

  lemma UniverseSnoc(days: seq<seq<string>>, day: seq<string>)
    ensures Universe(days + [day]) == Universe(days) + set k | 0 <= k < |day| && IsTicker(day[k]) :: day[k]
  {
    var all := days + [day];
    forall t | t in Universe(all)
      ensures t in Universe(days) || t in set k | 0 <= k < |day| && IsTicker(day[k]) :: day[k]
    {
      var i, j :| 0 <= i < |all| && 0 <= j < |all[i]| && IsTicker(all[i][j]) && all[i][j] == t;
      if i < |days| { assert all[i] == days[i]; }
    }
    forall t | t in Universe(days) ensures t in Universe(all) {
      var i, j :| 0 <= i < |days| && 0 <= j < |days[i]| && IsTicker(days[i][j]) && days[i][j] == t;
      assert all[i] == days[i];
    }
    forall k | 0 <= k < |day| && IsTicker(day[k]) ensures day[k] in Universe(all) {
      assert all[|days|] == day;
    }
  }

  /** The universe does not depend on the order in which the daily snapshots
      complete: any rearrangement of the days gives the same symbols. */
  lemma UniverseOrderIrrelevant(days: seq<seq<string>>, other: seq<seq<string>>)
    requires multiset(days) == multiset(other)
    ensures Universe(days) == Universe(other)
  {
    forall t | t in Universe(days) ensures t in Universe(other) {
      var i, j :| 0 <= i < |days| && 0 <= j < |days[i]| && IsTicker(days[i][j]) && days[i][j] == t;
      assert days[i] in multiset(other);
      var i' :| 0 <= i' < |other| && other[i'] == days[i];
    }
    forall t | t in Universe(other) ensures t in Universe(days) {
      var i, j :| 0 <= i < |other| && 0 <= j < |other[i]| && IsTicker(other[i][j]) && other[i][j] == t;
      assert other[i] in multiset(days);
      var i' :| 0 <= i' < |days| && days[i'] == other[i];
    }
  }

  /** Examples of the filter: letters-only upper-case tickers are kept, while
      lower case, digits, punctuation and the empty string are rejected. */
  lemma TickerExamples()
    ensures IsTicker("AAPL") && IsTicker("F")
    ensures !IsTicker("") && !IsTicker("BRK.B") && !IsTicker("Aapl") && !IsTicker("ABC1")
  {
    assert "BRK.B"[3] == '.';
    assert "Aapl"[1] == 'a';
    assert "ABC1"[3] == '1';
  }
}
